=== FILE: README.md ===
# finTrackAPI ledger core in Dafny

A model of the bookkeeping in the request handlers of finTrackAPI, a Spring
backend for personal finance, with proofs about it. Users hold these records,
each in its own repository:

- accounts, which are credit cards or savings accounts;
- a forest of categories;
- expenses, incomes, budgets, debts and saving goals.

The model covers what the handlers compute and refuse:

- **Account ledger.** Expense create, update and delete move the balance of the linked account.
  - On a credit card the balance is the amount owed, so an expense raises it.
  - On a savings account the balance is money held, so an expense lowers it.
  - A recompute rebuilds the balance from the expenses booked on the account.
- **Cascades.** Recording, updating and deleting a debt payment lowers or raises the debt and counts instalments. It files the payment as an expense in a lazily created "Debt Repayment" category and books it on an account. A savings contribution does the same against a "Savings" category, without an account.
- **Billing cycle.** For a credit card, the account view adds the current cycle's spend, the last statement balance and whether that statement is paid.
- **Category forest.**
  - Creation validates the type, the parent and the nesting quota.
  - Preorder collection of a subtree.
  - A deletion guard refuses while any node of the subtree is in use.
  - The listing returns root categories only.
- **Validators.** Budgets are unique per user, category and month, and a budget edit changes only its amount. An income category must have type INCOME. The expense listing chooses between three queries.

The persistence store is one immutable `Store`. It maps ids to records and
holds an id allocator, `nextId`, that hands out increasing ids. A handler is
a pure function from a store and a request to `Ok(new store)` or
`Err(error)`. The error carries the message the handler throws. Handlers
that run in one transaction are modelled as all-or-nothing. Money is an
unbounded `int`, because `BigDecimal` addition and subtraction are exact.
The Java `Integer` arithmetic on instalment counts wraps explicitly.
`LocalDate.now()` is a `today` parameter.

Modules, one per file:

| file | module | holds |
|---|---|---|
| wrappers.dfy | Wrappers | `Option`, `Result`, the error classes |
| dates.dfy | Dates | ISO calendar, month windows |
| entities.dfy | Entities | records, `Store`, the `Fresh` allocator invariant, Java `int` wrap-around |
| ledger.dfy | Ledger | balance convention, sums over the expense table |
| forest.dfy | Forest | category arena, ancestry, preorder collection |
| text.dfy | JavaText | `toUpperCase`, `equalsIgnoreCase`, `trim().isEmpty()`, `isBlank()` |
| categories.dfy | Categories | the CategoryController handlers, lookup-or-create by name |
| expenses.dfy | Expenses | the ExpenseController handlers |
| accounts.dfy | Accounts | recompute, billing cycle |
| debts.dfy | Debts | payment cascade |
| savings.dfy | Savings | saving edits, contribution cascade |
| incomes.dfy | Incomes | the IncomeController handlers |
| budgets.dfy | Budgets | the BudgetController handlers |
| consistency.dfy | Consistency | the ledger invariant across every balance-moving request |

The central result is `Consistency.BalanceIsOpeningPlusRecompute`. Start from
a store with no expenses and run any sequence of expense, payment,
contribution and income requests, accepted or refused. Afterwards every
account's balance equals its opening balance plus what the recompute would
set it to with no incomes. This holds for the all-or-nothing expense create,
`Expenses.CreateExpense`. The handler as written commits the balance of a
create that is then refused for want of a category, and
`Consistency.AsWrittenCreateBreaksConsistency` shows that this breaks the
result (see Findings).

## Model

Source paths are relative to the repository root.

| member | source | states |
|---|---|---|
| Dates.DaysInMonth | src/main/java/com/example/financemanager/controller/AccountController.java:135-137 | month length lies in 28..31 and is below 30 exactly for February |
| Dates.PrevMonth | src/main/java/com/example/financemanager/controller/AccountController.java:134 | `minusMonths(1)` lands in the month whose index is one less, so January goes back to December of the previous year |
| Dates.MonthWindow | src/main/java/com/example/financemanager/controller/ExpenseController.java:58-62 | `YearMonth.of` succeeds exactly for a month in 1..12 and a year in range; the window runs from day 1 to a valid last day of the same month, and the first day precedes the last |
| Dates.MonthWindowCoversMonth | src/main/java/com/example/financemanager/controller/ExpenseController.java:58-62 | a valid date lies inside the month window exactly when it has that year and month |
| Entities.WrapInt | src/main/java/com/example/financemanager/controller/DebtController.java:232-234 | the result is in Java `int` range and equals the input whenever the input is in range |
| Ledger.Adjust | src/main/java/com/example/financemanager/controller/ExpenseController.java:153-159 | the one named account's balance moves by the delta; every other account and the key set stay |
| Ledger.ReverseUndoesApply | src/main/java/com/example/financemanager/controller/ExpenseController.java:236-244 | undoing an expense's booking restores the account map exactly |
| Ledger.ApplyFrame | src/main/java/com/example/financemanager/controller/ExpenseController.java:153-159 | booking an expense changes only its own account and never an account type |
| Ledger.SumOverBound | src/main/java/com/example/financemanager/controller/AccountController.java:78-80 | once the bound is past every id, raising it does not change an expense total |
| Ledger.SumOverUpdate | src/main/java/com/example/financemanager/controller/AccountController.java:78-80 | rewriting one expense replaces its old contribution to a total by its new one |
| Ledger.SumOverRemove | src/main/java/com/example/financemanager/controller/AccountController.java:78-80 | removing one expense subtracts its contribution from a total |
| Ledger.SumOverSplit | src/main/java/com/example/financemanager/controller/AccountController.java:140-151 | an account's expense total is its spend dated from the cycle start on plus its spend not dated from then on |
| Forest.Preorder | src/main/java/com/example/financemanager/controller/CategoryController.java:133-138 | the collected list is non-empty and starts with the node; every entry is a node created no earlier |
| Forest.PreorderAll | src/main/java/com/example/financemanager/controller/CategoryController.java:135-137 | the children's collections hold only nodes created after the parent |
| Forest.PreorderSound | src/main/java/com/example/financemanager/controller/CategoryController.java:133-138 | everything collected is the node or a descendant of it |
| Forest.PreorderComplete | src/main/java/com/example/financemanager/controller/CategoryController.java:133-138 | every descendant of the node is collected |
| Forest.PreorderNoDup | src/main/java/com/example/financemanager/controller/CategoryController.java:133-138 | in a well-formed forest no node is collected twice |
| Forest.SiblingsDisjoint | src/main/java/com/example/financemanager/entities/CategoryEntity.java:21-27 | two different children of one parent have disjoint subtrees |
| Forest.CollectHierarchySpec | src/main/java/com/example/financemanager/controller/CategoryController.java:133-138 | the collection starts with the node and holds exactly the node and its descendants, each once |
| JavaText.ToUpper | src/main/java/com/example/financemanager/controller/CategoryController.java:69 | same length, character by character; no ASCII lower-case letter survives, and every lower-case letter is replaced by a letter `equalsIgnoreCase` treats as equal to it |
| JavaText.ToUpperIdempotentOnUpper | src/main/java/com/example/financemanager/controller/CategoryController.java:69-73 | a stored type name, which is ASCII upper case, is its own upper case |
| Categories.CreateCategory | src/main/java/com/example/financemanager/controller/CategoryController.java:57-103 | each check, in the handler's order, gives its own error once the earlier ones pass: "Category type is required" for a null or blank type; the invalid-type message when the upper-cased type is not INCOME/EXPENSE/BUDGET; "Parent category not found"; "Invalid parent category" for a foreign parent; a null dereference for a parent with a null type; the type-mismatch message; "Parent category does not allow further nesting". It succeeds exactly when every check passes. On success one node is added under a fresh id with the upper-cased type, and only the parent's child list changes. The child's quota is the parent's minus one when the parent has one, which leaves it non-negative; otherwise it is the requested one |
| Categories.ZeroQuotaRejectsChildren | src/main/java/com/example/financemanager/controller/CategoryController.java:90-92 | a parent with quota 0 accepts no child |
| Categories.CreateCategoryPreservesInvariant | src/main/java/com/example/financemanager/controller/CategoryController.java:75-102 | creation keeps the forest well formed; every child keeps its parent's owner and type, and one less than its parent's quota |
| Categories.FirstReferenced | src/main/java/com/example/financemanager/controller/CategoryController.java:119-127 | the first position in the order whose category is used by an expense, income or budget, and none exactly when no category in the order is used |
| Categories.DeleteCategory | src/main/java/com/example/financemanager/controller/CategoryController.java:105-131 | missing gives "Category not found" and foreign gives "Unauthorized to delete this category". The delete is refused exactly when some node of the collected subtree is in use, naming the first such node in preorder. Otherwise exactly the collected nodes are removed. Every surviving category keeps its record, except that the deleted category leaves its parent's child list. Nothing else in the store changes |
| Categories.DeleteRemovesSubtree | src/main/java/com/example/financemanager/controller/CategoryController.java:114-130 | after a successful delete the remaining categories are exactly those that do not descend from the deleted one |
| Categories.DeletePreservesInvariant | src/main/java/com/example/financemanager/entities/CategoryEntity.java:21-27 | removing a subtree, and unlinking it from its parent, keeps the forest well formed and parent/child agreement |
| Categories.RootCategories | src/main/java/com/example/financemanager/controller/CategoryController.java:45-54 | a category is listed exactly when it has no parent and, given a non-blank filter, its type equals the upper-cased filter |
| Categories.RootCategoriesAppend | src/main/java/com/example/financemanager/controller/CategoryController.java:49-54 | the listing keeps repository order: it distributes over concatenation |
| Categories.FirstNamed | src/main/java/com/example/financemanager/controller/DebtController.java:106-108 | the category of the user with the smallest id whose name equals the given name ignoring case; none only if the user has no such category. Ids are creation ordinals, so this takes the repository order to be creation order |
| Categories.NamedCategory | src/main/java/com/example/financemanager/controller/DebtController.java:106-116 | the first matching category is returned with the store unchanged; if there is none, a root named category is created under a fresh id with the given type and quota 0. No other table changes |
| Categories.NamedCategoryStable | src/main/java/com/example/financemanager/controller/SavingController.java:108-117 | a second lookup finds what the first one found or created, so the cascade never creates two |
| Categories.NamedCategoryPreservesInvariant | src/main/java/com/example/financemanager/controller/DebtController.java:109-115 | the lazily created category keeps the forest invariants |
| Expenses.MapExpenseInput | src/main/java/com/example/financemanager/controller/ExpenseController.java:249-279 | succeeds exactly when the category (if given) and the mandatory account are the caller's. Errors come in the handler's order: "Category not found", "Invalid category", "Account is mandatory for expenses", "Account not found", "Invalid account". On success the request fields are copied, and an absent category keeps the old one |
| Expenses.CreateExpense | src/main/java/com/example/financemanager/controller/ExpenseController.java:143-162 | succeeds exactly when the mapping does and a category is given; otherwise the error is returned and nothing is written. On success the expense is stored under a fresh id; only its account moves, by +amount on a credit card and -amount on savings |
| Expenses.CreateExpenseAsWritten | src/main/java/com/example/financemanager/controller/ExpenseController.java:153-161 | the handler without a transaction. A mapping failure leaves the store unchanged. With a category given it agrees with `CreateExpense` |
| Expenses.CreateWithoutCategoryMovesBalance | src/main/java/com/example/financemanager/controller/ExpenseController.java:153-161 | a create without a category fails with the row refused, yet the account's balance has moved and no expense was stored |
| Expenses.UpdateIsReverseThenApply | src/main/java/com/example/financemanager/controller/ExpenseController.java:185-219 | in all three branches (no old account, same account, different account) the balance change is "undo the old booking, then book the new one" |
| Expenses.UpdateExpense | src/main/java/com/example/financemanager/controller/ExpenseController.java:164-222 | gives "Expense not found" or "Unauthorized" for a missing or foreign expense, and passes on the mapping's error with nothing written. On success the expense is rewritten and the accounts are the old booking undone with the new one applied; nothing else changes |
| Expenses.UpdateSameAccount | src/main/java/com/example/financemanager/controller/ExpenseController.java:193-202 | on the same account a credit card moves by new - old and savings by old - new; an unchanged amount leaves every balance as it was |
| Expenses.MoveKeepsPairSum | src/main/java/com/example/financemanager/controller/ExpenseController.java:203-219 | moving an expense between two accounts of one type, amount unchanged, keeps the sum of their balances |
| Expenses.DeleteExpense | src/main/java/com/example/financemanager/controller/ExpenseController.java:224-247 | gives "Expense not found" or "Unauthorized" for a missing or foreign expense. On success the row is removed and its account moves back by the expense's delta; an expense without an account moves no balance, and no other account changes |
| Expenses.CreateThenDeleteRestores | src/main/java/com/example/financemanager/controller/ExpenseController.java:236-244 | deleting the expense just created restores the store, apart from the id allocator |
| Expenses.CategoryScope | src/main/java/com/example/financemanager/controller/ExpenseController.java:64-73 | the requested category id is always in the scope |
| Expenses.CategoryScopeSpec | src/main/java/com/example/financemanager/controller/ExpenseController.java:281-289 | the scope is the category and exactly its descendants; an unknown id scopes to itself alone |
| Expenses.DateBounds | src/main/java/com/example/financemanager/controller/ExpenseController.java:54-62 | explicit dates are used as given; only when both are absent and month and year are both present are they replaced by that month's window, whose failure is passed on |
| Expenses.ChooseExpenseQuery | src/main/java/com/example/financemanager/controller/ExpenseController.java:75-92 | fails exactly when the month window does. It is the date query exactly when no category, account or search is given and both bounds are known. It lists all of the user's expenses exactly when nothing is given. Otherwise it is the general filter with the category scope, the account, the search text and the date bounds; when month and year replace absent dates, those bounds are the first and last day of that month |
| Accounts.Recalculate | src/main/java/com/example/financemanager/controller/AccountController.java:68-99 | gives "Account not found" or "Unauthorized" for a missing or foreign account. For a credit card whose cycle start cannot be built, the response conversion throws and the transaction stores nothing. It succeeds exactly in the remaining cases. A credit card's balance becomes expenses - incomes and a savings balance becomes incomes - expenses. Only that balance changes |
| Accounts.RecalculateIgnoresBalance | src/main/java/com/example/financemanager/controller/AccountController.java:78-97 | the result does not depend on the balance it replaces |
| Accounts.RecalculateIdempotent | src/main/java/com/example/financemanager/controller/AccountController.java:71-97 | recomputing a recomputed account changes nothing |
| Accounts.CycleStart | src/main/java/com/example/financemanager/controller/AccountController.java:128-138 | fails exactly for a start day below 1, or when rolling back from January of the first representable year. Otherwise the start is a valid date no later than today. Once the day has come it is that day of this month; before that it is that day of last month, clamped to last month's length |
| Accounts.CycleStartMissesClampedDay | src/main/java/com/example/financemanager/controller/AccountController.java:133-137 | on 28 February 2026 with start day 30 the handler starts the cycle on 30 January, although 28 is February's clamped start day |
| Accounts.CycleStartClamped | src/main/java/com/example/financemanager/controller/AccountController.java:132-138 | the same computation with this month's start day clamped as well: it fails exactly for a start day below 1 or a roll back before the first year, and otherwise gives a valid date no later than today |
| Accounts.CycleStartClampedIsLatest | src/main/java/com/example/financemanager/controller/AccountController.java:132-138 | the clamped start is a cycle day, and no later date up to today is one |
| Accounts.FiguresSince | src/main/java/com/example/financemanager/controller/AccountController.java:139-155 | current spend is the total booked on the card from the given start on; last statement balance plus current spend is the balance; the statement is paid exactly when the balance is at most the current spend |
| Accounts.AccountCycle | src/main/java/com/example/financemanager/controller/AccountController.java:125-157 | only credit cards with a start day get figures, and they fail exactly when the handler's cycle start does. Current spend is the total booked on the card from the handler's cycle start on. Last statement balance plus current spend is the balance. Paid holds exactly when the balance is at most the current spend |
| Accounts.AccountCycleClamped | src/main/java/com/example/financemanager/controller/AccountController.java:132-157 | the same figures counted from the clamped cycle start |
| Accounts.StatementIsEarlierSpend | src/main/java/com/example/financemanager/controller/AccountController.java:148-152 | when the balance is the card's expense total, the last statement balance is exactly what was booked before the cycle began, for either cycle start |
| Accounts.AccountCycleDiffersFromClamped | src/main/java/com/example/financemanager/controller/AccountController.java:133-152 | on 28 February 2026 with start day 30, an expense of 10 February counts in the handler's current cycle but on the clamped start's last statement |
| Debts.CountDown | src/main/java/com/example/financemanager/controller/DebtController.java:99-101 | a positive pending count drops by one; a null or non-positive one is kept; a non-negative count stays non-negative |
| Debts.CountUp | src/main/java/com/example/financemanager/controller/DebtController.java:231-234 | with both counts set, pending rises by one and wraps from the largest `int` to the smallest; otherwise it is kept |
| Debts.RecordPayment | src/main/java/com/example/financemanager/controller/DebtController.java:85-148 | gives, in order, "Debt record not found", "Unauthorized access to debt record", "Account not found", "Invalid account", and succeeds otherwise. The debt drops by the payment and counts down. One expense "Repayment: name" is added under the repayment category, linked to the debt and the account and dated today by default. Only the named account moves, under the expense convention |
| Debts.PaymentError | src/main/java/com/example/financemanager/controller/DebtController.java:178-186 | no error exactly when the debt and the payment exist, the payment is the caller's, and it is filed under this debt |
| Debts.UpdatePayment | src/main/java/com/example/financemanager/controller/DebtController.java:174-212 | fails exactly with the payment error. On success the debt moves by old - new and the payment takes the new amount and date. Its account moves from the old booking to the new one. The account link and the instalment count stay |
| Debts.DeletePayment | src/main/java/com/example/financemanager/controller/DebtController.java:214-249 | fails exactly with the payment error. On success the amount goes back on the debt and an instalment is counted back. The booking is undone on the payment's account and the payment is removed |
| Debts.RecordThenDeleteRestores | src/main/java/com/example/financemanager/controller/DebtController.java:228-247 | deleting the payment just recorded succeeds and restores the debt amount, every account and the expense table |
| Debts.RecordThenDeleteInstalments | src/main/java/com/example/financemanager/controller/DebtController.java:99-101 | after record then delete the pending count is back exactly when it was null, or when "it was positive" coincides with "the total is set" |
| Debts.UpdateBackRestores | src/main/java/com/example/financemanager/controller/DebtController.java:188-208 | updating a payment and then updating it back to its old amount restores the debts and every account |
| Savings.MapSavingInput | src/main/java/com/example/financemanager/controller/SavingController.java:143-149 | name, category, amount, target and date come from the request; the owner is kept |
| Savings.MapSavingInputIdempotent | src/main/java/com/example/financemanager/controller/SavingController.java:143-149 | mapping the same request twice is mapping it once |
| Savings.Persistable | src/main/java/com/example/financemanager/entities/SavingEntity.java:33-34 | the savings table accepts a row exactly when it has a date |
| Savings.CreateSaving | src/main/java/com/example/financemanager/controller/SavingController.java:58-64 | succeeds exactly when the request has a date; otherwise the row is refused and nothing is written. On success one saving, the mapped request owned by the caller, is added under a fresh id and nothing else changes |
| Savings.UpdateSaving | src/main/java/com/example/financemanager/controller/SavingController.java:66-78 | gives "Saving record not found" or "Unauthorized access to saving record" for a missing or foreign saving, and refuses a request without a date. It succeeds exactly in the remaining cases. Only that saving changes, to the mapped request |
| Savings.CreateThenUpdateIsCreate | src/main/java/com/example/financemanager/controller/SavingController.java:58-78 | updating the saving just created gives the store that creating it with the update would have given |
| Savings.UpdateSavingIdempotent | src/main/java/com/example/financemanager/controller/SavingController.java:66-78 | repeating an update changes nothing more |
| Savings.RecordContribution | src/main/java/com/example/financemanager/controller/SavingController.java:92-129 | gives "Saving record not found" or "Unauthorized access to saving record" before any change, and succeeds otherwise. The saving rises by the contribution. One expense "Saving: name" is added with that amount under the "Savings" category, linked to the saving and to no account, dated today by default. No account, debt, income or budget changes |
| Savings.ContributionsShareCategory | src/main/java/com/example/financemanager/controller/SavingController.java:108-117 | a second contribution succeeds, creates no category and files under the same category as the first |
| Incomes.MapIncomeInput | src/main/java/com/example/financemanager/controller/IncomeController.java:83-104 | succeeds exactly when no category is given or it is the caller's and of type exactly INCOME. Errors come in order: "Category not found", "Invalid category", "Category must be of type INCOME". On success the request fields are copied and an absent category keeps the old one |
| Incomes.Persistable | src/main/java/com/example/financemanager/entities/IncomeEntity.java:21-34 | the income table accepts a row exactly when it has a category and a date |
| Incomes.CreateIncome | src/main/java/com/example/financemanager/controller/IncomeController.java:49-55 | succeeds exactly when the category is given and valid and the date is given. One income is added under a fresh id and nothing else changes, so no account moves |
| Incomes.UpdateIncome | src/main/java/com/example/financemanager/controller/IncomeController.java:57-69 | gives "Income not found" or "Unauthorized to update this income" for a missing or foreign income. It passes on the mapping's error, and the table refuses a row left without a category or a date. It succeeds exactly when the income is the caller's, a given category is valid, a category is given or already present, and a date is given. On success only that income changes, to the mapped request, and an absent category keeps the old one |
| Incomes.DeleteIncome | src/main/java/com/example/financemanager/controller/IncomeController.java:71-81 | gives "Income not found" or "Unauthorized to delete this income" for a missing or foreign income. Otherwise only that income is removed |
| Incomes.CreateThenDeleteIncome | src/main/java/com/example/financemanager/controller/IncomeController.java:49-81 | deleting the income just created restores the store, apart from the id allocator |
| Incomes.IncomeWindow | src/main/java/com/example/financemanager/controller/IncomeController.java:39-46 | with month and year both given it is that month's window, whose failure is passed on; otherwise there is no window |
| Incomes.IncomeWindowIsMonth | src/main/java/com/example/financemanager/controller/IncomeController.java:39-43 | a valid date lies in the window exactly when it has that year and month |
| Budgets.CreateBudget | src/main/java/com/example/financemanager/controller/BudgetController.java:51-74 | a duplicate for user, category and month is refused first; then "Category not found" and "Invalid category selected". A request without a month passes the duplicate check, whose null match finds nothing, and the table then refuses the row. It succeeds exactly when all checks pass and a month is given. On success exactly one budget is added under a fresh id |
| Budgets.UpdateBudget | src/main/java/com/example/financemanager/controller/BudgetController.java:76-92 | gives "Budget not found" or "Unauthorized access to budget" for a missing or foreign budget. On success only the amount of that budget changes; its owner, category and month and every other budget stay |
| Budgets.DeleteBudget | src/main/java/com/example/financemanager/controller/BudgetController.java:94-104 | gives "Budget not found" or "Unauthorized access to budget" for a missing or foreign budget. Otherwise only that budget is removed |
| Budgets.CreateBudgetKeepsUnique | src/main/java/com/example/financemanager/controller/BudgetController.java:53-57 | creation keeps at most one budget per user, category and month |
| Budgets.UpdateBudgetKeepsUnique | src/main/java/com/example/financemanager/controller/BudgetController.java:86-91 | an amount edit keeps at most one budget per user, category and month |
| Budgets.DeleteBudgetKeepsUnique | src/main/java/com/example/financemanager/controller/BudgetController.java:94-104 | deletion keeps at most one budget per user, category and month |
| Budgets.BudgetsFor | src/main/java/com/example/financemanager/controller/BudgetController.java:40-48 | without both month and year every budget is listed. With them, a budget is listed exactly when its month field has that month and year |
| Budgets.BudgetsForAppend | src/main/java/com/example/financemanager/controller/BudgetController.java:43-45 | the filter keeps repository order: it distributes over concatenation |
| Consistency.CreateExpenseKeeps | src/main/java/com/example/financemanager/controller/ExpenseController.java:153-161 | an accepted create keeps every balance equal to opening balance plus signed expense total |
| Consistency.UpdateExpenseKeeps | src/main/java/com/example/financemanager/controller/ExpenseController.java:185-221 | an accepted expense update keeps that invariant, whichever accounts are involved |
| Consistency.DeleteExpenseKeeps | src/main/java/com/example/financemanager/controller/ExpenseController.java:236-246 | an accepted expense delete keeps that invariant |
| Consistency.RecordPaymentKeeps | src/main/java/com/example/financemanager/controller/DebtController.java:118-145 | an accepted payment, with or without an account, keeps that invariant |
| Consistency.UpdatePaymentKeeps | src/main/java/com/example/financemanager/controller/DebtController.java:195-210 | an accepted payment update keeps that invariant |
| Consistency.DeletePaymentKeeps | src/main/java/com/example/financemanager/controller/DebtController.java:236-247 | an accepted payment delete keeps that invariant |
| Consistency.ContributionKeeps | src/main/java/com/example/financemanager/controller/SavingController.java:119-126 | an accepted contribution keeps that invariant |
| Consistency.IncomeOpsKeep | src/main/java/com/example/financemanager/controller/IncomeController.java:49-81 | income requests, accepted or refused, keep that invariant and the allocator fresh |
| Consistency.StepKeepsConsistent | src/main/java/com/example/financemanager/controller/ExpenseController.java:143-247 | every modelled request, accepted or refused, keeps the allocator fresh and that invariant. An expense create is the all-or-nothing `Expenses.CreateExpense`, not the handler as written |
| Consistency.RunKeepsConsistent | src/main/java/com/example/financemanager/controller/ExpenseController.java:143-247 | any sequence of requests keeps the allocator fresh and that invariant, with the all-or-nothing expense create |
| Consistency.BalanceIsOpeningPlusRecompute | src/main/java/com/example/financemanager/controller/AccountController.java:86-95 | start with no expenses and run any sequence of requests, with the all-or-nothing expense create. Every account is then an original one, and its balance is the opening balance plus the balance the recompute rebuilds with no incomes. A recompute that succeeds therefore returns that balance. With the handler's create as written this fails (Findings) |
| Consistency.AsWrittenCreateBreaksConsistency | src/main/java/com/example/financemanager/controller/ExpenseController.java:153-161 | the handler's create without a category breaks that invariant |

## Left out

- Authentication, JWT, security configuration and auditing timestamps are framework plumbing, so they are not modelled.
- Account create, update and delete are not modelled. Neither are the plain field copying of `convertToDTO`, debt create, update and delete, or saving delete. Each is a lookup, an ownership check and a field overwrite with nothing derived.
- `getDebts`, `getSavings`, `getPayments` and `getHistory` are not modelled. The first two depend on the system time zone; the last two are plain repository lookups.
- Expenses.ChooseExpenseQuery: only the choice of repository query and its arguments is modelled. The rows that `findFilteredExpenses` and the other repository queries return are not, because their JPQL is not part of this model.
- Accounts.Recalculate: the income total is a parameter. `IncomeEntity` has no account reference, so the repository call that totals incomes per account has nothing in the model to sum.
- JavaText.ToUpper: the case mapping covers the characters whose Java upper case is an ASCII letter and leaves every other character unchanged. This is weaker than Java's full Unicode mapping. It decides the comparisons with the ASCII constants the handlers use as Java does under a locale whose case rules for these letters are the root ones. The no-argument `toUpperCase()` uses the JVM's default locale. Under a Turkish or Azerbaijani default locale, "income" upper-cases to a dotted capital I and fails against "INCOME"; that locale dependence is not modelled.
- Several repository methods the handlers call are not declared in the repository interfaces that are part of this model: `findByAccount_Id`, `findByAccount_IdAndExpenseDateGreaterThanEqual` and `findFilteredExpenses` of the expense repository, `findByAccount_Id` and `existsByCategoryId` of the income repository, and `existsByCategoryId` of the budget repository. The model assumes each is the Spring Data derived query its name describes. `Categories.Referenced`, `Accounts.Recalculate` and `Accounts.AccountCycle` rest on that assumption.
- Categories.DeleteCategory and Expenses.ChooseExpenseQuery require every child link to point at a category created after its parent. Every creation keeps this, and it is what makes the recursive subtree walk terminate; a cyclic parent chain, which the handlers would follow forever, is not modelled.
- Ledger.Adjust: a balance write on an id missing from the account table is skipped. The database's foreign keys make such an id impossible.
- Null `BigDecimal` amounts, null names and null account types are not modelled. A null amount or account type would raise `NullPointerException` in the handlers. The savings, income, debt and account tables refuse a null name; the category and expense tables do not. A null income name would make the income table refuse the row, a refusal `Incomes.Persistable` does not model. A category may be stored with a null name, which the lookup by name would pass over because `equalsIgnoreCase` with a null argument is false; such a category is not modelled. Amounts and names are always present in the model. A null expense or income description is modelled as "".
- The order of `subCategories` is taken to be creation order, because the association has no declared order.
- Categories.FirstNamed: the order of `findByUserId` is taken to be creation order. The backend's ids are random UUIDs, and the query declares no order, so which of two categories with the same name the debt and saving cascades pick is not fixed by the source. `Categories.NamedCategoryStable` and `Savings.ContributionsShareCategory` rely on this order being the same on every call.
- The sums over the expense table run over ids below the allocator. Under the `Fresh` invariant every id is below it, so these are sums over the whole table.
- A budget's category id is never null in the model. A null one would make the repository lookup throw.
- `BigDecimal` scale and precision and the HTTP response mapping are not modelled.
- Concurrency and isolation are not modelled. Each request is one atomic step; the one non-transactional handler whose partial commit matters is modelled separately (see Findings).

## Findings

| source | as written | input that shows it | evidently intended | confidence | as-written member | corrected member |
|---|---|---|---|---|---|---|
| src/main/java/com/example/financemanager/controller/ExpenseController.java:153-161 | `createExpense` runs without a transaction and saves the account balance before the expense. The expense's category column is mandatory (ExpenseEntity.java:21-23), so a request without a category is refused only after the balance change has been committed | a create request with no categoryId, an own account and amount 100 | the request is refused and no balance changes | medium, not executed | Expenses.CreateExpenseAsWritten, Expenses.CreateWithoutCategoryMovesBalance, Consistency.AsWrittenCreateBreaksConsistency | Expenses.CreateExpense |
| src/main/java/com/example/financemanager/controller/AccountController.java:133-137 | the branch test compares today's day with the unclamped start day, so the clamp in the current-month branch can never change anything. In a month shorter than the start day, the clamped start day of the current month is never taken as the cycle start | today 2026-02-28 with billing cycle start day 30 gives 2026-01-30 | the cycle restarts on the clamped start day, 2026-02-28 | low, not executed | Accounts.CycleStart, Accounts.CycleStartMissesClampedDay, Accounts.AccountCycle, Accounts.AccountCycleDiffersFromClamped | Accounts.CycleStartClamped, Accounts.CycleStartClampedIsLatest, Accounts.AccountCycleClamped |

For the second finding, the account figures and the recompute's failure
follow the handler's cycle start. The clamped cycle start may be the
intended behaviour, but that is uncertain, so the corrected figures sit
beside the handler's in `Accounts.AccountCycleClamped`.

=== FILE: accounts.dfy ===
/** AccountController: the balance recompute and the credit-card billing
    cycle figures that `convertToDTO` adds to every account it returns. */
module Accounts {
  import opened Wrappers
  import opened Dates
  import opened Entities
  import opened Ledger

  /** `newBalance` of `recalculateBalance`: the balance rebuilt from the
      expenses booked on the account and the income total.  Incomes carry no
      account reference, so their total is an input here. */
  function RecomputedBalance(s: Store, id: Id, incomeTotal: int): (b: int)
    requires id in s.accounts
    ensures s.accounts[id].kind == CreditCard ==> b == LinkedTotal(s, id) - incomeTotal
    ensures s.accounts[id].kind == Savings ==> b == incomeTotal - LinkedTotal(s, id)
  {
    match s.accounts[id].kind
    case CreditCard => LinkedTotal(s, id) - incomeTotal
    case Savings => incomeTotal - LinkedTotal(s, id)
  }

  /** Whether `convertToDTO` throws for the account: a credit card with a
      cycle start day whose cycle start `java.time` cannot build. */
  predicate CycleFails(a: Account, today: Date)
    requires ValidDate(today)
  {
    a.kind == CreditCard && a.billingCycleStartDay.Some? && CycleStart(today, a.billingCycleStartDay.value).Err?
  }

  /** `recalculateBalance`: the balance is rebuilt, whatever it was before,
      and the saved account is converted for the response.  The handler is
      transactional, so when the conversion throws nothing is stored. */
  function Recalculate(s: Store, user: UserId, id: Id, incomeTotal: int, today: Date): (r: Result<Store>)
    requires ValidDate(today)
    ensures id !in s.accounts ==> r == Err(NotFound("Account not found"))
    ensures id in s.accounts && s.accounts[id].owner != user ==> r == Err(Unauthorized("Unauthorized"))
    ensures id in s.accounts && s.accounts[id].owner == user && CycleFails(s.accounts[id], today) ==> r == Err(BadDate)
    ensures r.Ok? <==> id in s.accounts && s.accounts[id].owner == user && !CycleFails(s.accounts[id], today)
    ensures r.Ok? ==>
      && id in r.value.accounts
      && r.value.accounts == s.accounts[id := s.accounts[id].(balance := r.value.accounts[id].balance)]
      && r.value == s.(accounts := r.value.accounts)
      && r.value.accounts[id].balance == RecomputedBalance(s, id, incomeTotal)
    ensures r.Ok? && s.accounts[id].kind == CreditCard ==>
      r.value.accounts[id].balance == LinkedTotal(s, id) - incomeTotal
    ensures r.Ok? && s.accounts[id].kind == Savings ==>
      r.value.accounts[id].balance == incomeTotal - LinkedTotal(s, id)
  {
    if id !in s.accounts then Err(NotFound("Account not found"))
    else
      var a := s.accounts[id];
      if a.owner != user then Err(Unauthorized("Unauthorized"))
      else
        var s' := s.(accounts := s.accounts[id := a.(balance := RecomputedBalance(s, id, incomeTotal))]);
        var figures := AccountCycle(s', id, today);
        if figures.Err? then Err(figures.error) else Ok(s')
  }

  /** The recompute does not read the balance it replaces: two stores that
      differ only in that balance recompute to the same store. */
  lemma RecalculateIgnoresBalance(s: Store, user: UserId, id: Id, incomeTotal: int, today: Date, b: int)
    requires id in s.accounts && ValidDate(today)
    ensures var t := s.(accounts := s.accounts[id := s.accounts[id].(balance := b)]);
            Recalculate(t, user, id, incomeTotal, today) == Recalculate(s, user, id, incomeTotal, today)
  {
    var t := s.(accounts := s.accounts[id := s.accounts[id].(balance := b)]);
    assert LinkedTotal(t, id) == LinkedTotal(s, id);
    forall x ensures t.accounts[id := t.accounts[id].(balance := x)] == s.accounts[id := s.accounts[id].(balance := x)] {
      assert t.accounts[id].(balance := x) == s.accounts[id].(balance := x);
    }
  }

  /** Recomputing twice gives what recomputing once gives. */
  lemma RecalculateIdempotent(s: Store, user: UserId, id: Id, incomeTotal: int, today: Date)
    requires ValidDate(today) && Recalculate(s, user, id, incomeTotal, today).Ok?
    ensures var s' := Recalculate(s, user, id, incomeTotal, today).value;
            Recalculate(s', user, id, incomeTotal, today) == Ok(s')
  {
    var s' := Recalculate(s, user, id, incomeTotal, today).value;
    RecalculateIgnoresBalance(s, user, id, incomeTotal, today, s'.accounts[id].balance);
  }

  /** `Math.min`. */
  function Min(a: int, b: int): int {
    if a <= b then a else b
  }

  /** Start of the current billing cycle, as `convertToDTO` computes it from
      today's date and the cycle start day: that day of this month once it
      has come, otherwise that day of last month clamped to last month's
      length.  `withDayOfMonth` throws for a day below 1, and `minusMonths`
      for a month before `java.time`'s first year. */
  function CycleStart(today: Date, startDay: int): (r: Result<Date>)
    requires ValidDate(today)
    ensures r.Err? <==> startDay < 1 || (today.day < startDay && today.year == MinYear && today.month == 1)
    ensures r.Err? ==> r.error == BadDate
    ensures r.Ok? ==> ValidDate(r.value) && DateLe(r.value, today)
    ensures r.Ok? && startDay <= today.day ==> r.value == today.(day := startDay)
    ensures r.Ok? && today.day < startDay ==>
      && MonthIndex(r.value.year, r.value.month) == MonthIndex(today.year, today.month) - 1
      && r.value.day == Min(startDay, DaysInMonth(r.value.year, r.value.month))
  {
    if today.day < startDay then
      var (y, m) := PrevMonth(today.year, today.month);
      if y < MinYear then Err(BadDate)
      else Ok(Date(y, m, Min(startDay, DaysInMonth(y, m))))
    else
      var day := Min(startDay, DaysInMonth(today.year, today.month));
      if day < 1 then Err(BadDate) else Ok(today.(day := day))
  }

  /** On the last day of a month shorter than the cycle start day, the
      cycle still starts in the month before, although that day is the
      clamped start day of the current month: 28 February 2026 with start
      day 30 gives 30 January. */
  lemma CycleStartMissesClampedDay()
    ensures CycleStart(Date(2026, 2, 28), 30) == Ok(Date(2026, 1, 30))
    ensures Min(30, DaysInMonth(2026, 2)) == 28
  {
  }

  /** Start of the current billing cycle with the clamp applied to this
      month too: the cycle restarts on the clamped start day of this month
      once it has come. */
  function CycleStartClamped(today: Date, startDay: int): (r: Result<Date>)
    requires ValidDate(today)
    ensures r.Err? <==>
      || startDay < 1
      || (today.day < Min(startDay, DaysInMonth(today.year, today.month)) && today.year == MinYear && today.month == 1)
    ensures r.Err? ==> r.error == BadDate
    ensures r.Ok? ==> ValidDate(r.value) && DateLe(r.value, today)
    ensures r.Ok? && startDay <= today.day ==> r.value == today.(day := startDay)
  {
    var here := Min(startDay, DaysInMonth(today.year, today.month));
    if here < 1 then Err(BadDate)
    else if today.day < here then
      var (y, m) := PrevMonth(today.year, today.month);
      if y < MinYear then Err(BadDate)
      else Ok(Date(y, m, Min(startDay, DaysInMonth(y, m))))
    else Ok(today.(day := here))
  }

  /** Whether `d` is a cycle start day for `startDay`: that day of its month,
      or the month's last day when the month is shorter. */
  predicate IsCycleDay(d: Date, startDay: int)
    requires 1 <= d.month <= 12
  {
    d.day == Min(startDay, DaysInMonth(d.year, d.month))
  }

  /** The clamped cycle start is the latest cycle day up to today: it is one,
      and no later date up to today is. */
  lemma CycleStartClampedIsLatest(today: Date, startDay: int, d: Date)
    requires ValidDate(today) && CycleStartClamped(today, startDay).Ok?
    requires ValidDate(d) && DateLe(d, today)
    ensures IsCycleDay(CycleStartClamped(today, startDay).value, startDay)
    ensures IsCycleDay(d, startDay) ==> DateLe(d, CycleStartClamped(today, startDay).value)
  {
  }

  /** The figures `convertToDTO` adds for a credit card with a cycle start day. */
  datatype CycleFigures = CycleFigures(currentCycleSpent: int, lastStatementBalance: int, lastStatementPaid: bool)

  /** The figures for a cycle that began on `start`: the spend booked on
      the card from `start` on, the rest of the balance as the last
      statement, and that statement paid when nothing of it is left. */
  function FiguresSince(s: Store, id: Id, start: Date): (f: CycleFigures)
    requires id in s.accounts
    ensures f.currentCycleSpent == SumOver(s.expenses, s.nextId, LinkedSince(id, start))
    ensures f.lastStatementBalance + f.currentCycleSpent == s.accounts[id].balance
    ensures f.lastStatementPaid <==> s.accounts[id].balance <= f.currentCycleSpent
  {
    var spent := SumOver(s.expenses, s.nextId, LinkedSince(id, start));
    var last := s.accounts[id].balance - spent;
    CycleFigures(spent, last, last <= 0)
  }

  /** Spend of the current cycle and what remains of the last statement, as
      `convertToDTO` computes them from the handler's cycle start.  Only
      credit cards with a cycle start day get figures. */
  function AccountCycle(s: Store, id: Id, today: Date): (r: Result<Option<CycleFigures>>)
    requires id in s.accounts && ValidDate(today)
    ensures s.accounts[id].kind != CreditCard || s.accounts[id].billingCycleStartDay.None? ==> r == Ok(None)
    ensures r.Err? <==> CycleFails(s.accounts[id], today)
    ensures s.accounts[id].kind == CreditCard && s.accounts[id].billingCycleStartDay.Some? ==>
      var startDay := s.accounts[id].billingCycleStartDay.value;
      match CycleStart(today, startDay)
      case Err(e) => r == Err(e)
      case Ok(start) =>
        && r.Ok? && r.value.Some?
        && r.value.value.currentCycleSpent == SumOver(s.expenses, s.nextId, LinkedSince(id, start))
        && r.value.value.lastStatementBalance + r.value.value.currentCycleSpent == s.accounts[id].balance
        && (r.value.value.lastStatementPaid <==> s.accounts[id].balance <= r.value.value.currentCycleSpent)
  {
    var a := s.accounts[id];
    if a.kind != CreditCard || a.billingCycleStartDay.None? then Ok(None)
    else
      var start :- CycleStart(today, a.billingCycleStartDay.value);
      Ok(Some(FiguresSince(s, id, start)))
  }

  /** The same figures counted from the corrected, clamped cycle start. */
  function AccountCycleClamped(s: Store, id: Id, today: Date): (r: Result<Option<CycleFigures>>)
    requires id in s.accounts && ValidDate(today)
    ensures s.accounts[id].kind != CreditCard || s.accounts[id].billingCycleStartDay.None? ==> r == Ok(None)
    ensures s.accounts[id].kind == CreditCard && s.accounts[id].billingCycleStartDay.Some? ==>
      var startDay := s.accounts[id].billingCycleStartDay.value;
      match CycleStartClamped(today, startDay)
      case Err(e) => r == Err(e)
      case Ok(start) =>
        && r.Ok? && r.value.Some?
        && r.value.value.currentCycleSpent == SumOver(s.expenses, s.nextId, LinkedSince(id, start))
        && r.value.value.lastStatementBalance + r.value.value.currentCycleSpent == s.accounts[id].balance
        && (r.value.value.lastStatementPaid <==> s.accounts[id].balance <= r.value.value.currentCycleSpent)
  {
    var a := s.accounts[id];
    if a.kind != CreditCard || a.billingCycleStartDay.None? then Ok(None)
    else
      var start :- CycleStartClamped(today, a.billingCycleStartDay.value);
      Ok(Some(FiguresSince(s, id, start)))
  }

  /** When the card's balance is the sum of what was booked on it (as after
      a recompute with no incomes), the last statement balance is exactly
      what was booked before the cycle began, for either cycle start. */
  lemma StatementIsEarlierSpend(s: Store, id: Id, today: Date)
    requires id in s.accounts && ValidDate(today)
    requires s.accounts[id].kind == CreditCard && s.accounts[id].billingCycleStartDay.Some?
    requires s.accounts[id].balance == LinkedTotal(s, id)
    ensures AccountCycle(s, id, today).Ok? ==>
      var start := CycleStart(today, s.accounts[id].billingCycleStartDay.value).value;
      AccountCycle(s, id, today).value.value.lastStatementBalance
      == SumOver(s.expenses, s.nextId, LinkedBefore(id, start))
    ensures AccountCycleClamped(s, id, today).Ok? ==>
      var start := CycleStartClamped(today, s.accounts[id].billingCycleStartDay.value).value;
      AccountCycleClamped(s, id, today).value.value.lastStatementBalance
      == SumOver(s.expenses, s.nextId, LinkedBefore(id, start))
  {
    var day := s.accounts[id].billingCycleStartDay.value;
    if CycleStart(today, day).Ok? {
      SumOverSplit(s.expenses, s.nextId, id, CycleStart(today, day).value);
    }
    if CycleStartClamped(today, day).Ok? {
      SumOverSplit(s.expenses, s.nextId, id, CycleStartClamped(today, day).value);
    }
  }

  /** The two cycle starts lead to different figures: on 28 February 2026,
      for a card with start day 30 that has one expense of 5 booked on
      10 February, the handler counts it in the current cycle and the
      clamped start leaves it on the last statement. */
  lemma AccountCycleDiffersFromClamped()
    ensures var e := Expense(0, "", "", 5, Some(Date(2026, 2, 10)), None, Some(0), None, None);
            var s := Store(map[0 := Account(0, "", CreditCard, 5, None, Some(30), None, None)],
                           map[], map[1 := e], map[], map[], map[], map[], 2);
            && AccountCycle(s, 0, Date(2026, 2, 28)) == Ok(Some(CycleFigures(5, 0, true)))
            && AccountCycleClamped(s, 0, Date(2026, 2, 28)) == Ok(Some(CycleFigures(0, 5, false)))
  {
  }
}

=== FILE: budgets.dfy ===
/** BudgetController: at most one budget per user, category and month; an
    edit changes the amount only; the listing filters by month and year. */
module Budgets {
  import opened Wrappers
  import opened Dates
  import opened Entities

  /** Request body of `createBudget` (BudgetDTO); the month may be null. */
  datatype BudgetInput = BudgetInput(categoryId: Id, amount: int, month: Option<Date>)

  /** `existsByUserIdAndCategoryIdAndMonth`.  A null month is matched with
      `IS NULL`, which no stored budget satisfies. */
  predicate HasBudget(budgets: map<Id, Budget>, user: UserId, category: Id, month: Option<Date>) {
    exists k :: k in budgets && budgets[k].owner == user && budgets[k].category == category && Some(budgets[k].month) == month
  }

  /** No two budgets share user, category and month. */
  predicate UniqueBudgets(budgets: map<Id, Budget>) {
    forall j, k :: j in budgets && k in budgets && j != k ==>
      (budgets[j].owner, budgets[j].category, budgets[j].month) != (budgets[k].owner, budgets[k].category, budgets[k].month)
  }

  /** `createBudget`: the duplicate check comes first, then the category
      must exist and be the caller's; the table refuses a row without a
      month. */
  function CreateBudget(s: Store, user: UserId, input: BudgetInput): (r: Result<Store>)
    ensures HasBudget(s.budgets, user, input.categoryId, input.month) ==>
      r == Err(Invalid("Budget already exists for this category and month"))
    ensures !HasBudget(s.budgets, user, input.categoryId, input.month) ==>
      && (input.categoryId !in s.categories ==> r == Err(NotFound("Category not found")))
      && (input.categoryId in s.categories && s.categories[input.categoryId].owner != user ==>
            r == Err(Invalid("Invalid category selected")))
      && (input.categoryId in s.categories && s.categories[input.categoryId].owner == user && input.month.None? ==>
            r == Err(Rejected))
    ensures input.month.None? ==> !HasBudget(s.budgets, user, input.categoryId, input.month) && r.Err?
    ensures r.Ok? <==>
      && !HasBudget(s.budgets, user, input.categoryId, input.month)
      && input.categoryId in s.categories && s.categories[input.categoryId].owner == user
      && input.month.Some?
    ensures r.Ok? ==>
      && r.value.budgets == s.budgets[s.nextId := Budget(user, input.categoryId, input.amount, input.month.value)]
      && r.value == s.(budgets := r.value.budgets, nextId := s.nextId + 1)
  {
    if HasBudget(s.budgets, user, input.categoryId, input.month) then
      Err(Invalid("Budget already exists for this category and month"))
    else if input.categoryId !in s.categories then Err(NotFound("Category not found"))
    else if s.categories[input.categoryId].owner != user then Err(Invalid("Invalid category selected"))
    else if input.month.None? then Err(Rejected)
    else Ok(s.(budgets := s.budgets[s.nextId := Budget(user, input.categoryId, input.amount, input.month.value)],
               nextId := s.nextId + 1))
  }

  /** `updateBudget`: only the amount changes. */
  function UpdateBudget(s: Store, user: UserId, id: Id, amount: int): (r: Result<Store>)
    ensures id !in s.budgets ==> r == Err(NotFound("Budget not found"))
    ensures id in s.budgets && s.budgets[id].owner != user ==> r == Err(Unauthorized("Unauthorized access to budget"))
    ensures r.Ok? <==> id in s.budgets && s.budgets[id].owner == user
    ensures r.Ok? ==>
      && r.value.budgets.Keys == s.budgets.Keys
      && (forall k :: k in s.budgets && k != id ==> r.value.budgets[k] == s.budgets[k])
      && r.value.budgets[id].amount == amount
      && r.value.budgets[id].owner == s.budgets[id].owner
      && r.value.budgets[id].category == s.budgets[id].category
      && r.value.budgets[id].month == s.budgets[id].month
      && r.value == s.(budgets := r.value.budgets)
  {
    if id !in s.budgets then Err(NotFound("Budget not found"))
    else if s.budgets[id].owner != user then Err(Unauthorized("Unauthorized access to budget"))
    else Ok(s.(budgets := s.budgets[id := s.budgets[id].(amount := amount)]))
  }

  /** `deleteBudget`. */
  function DeleteBudget(s: Store, user: UserId, id: Id): (r: Result<Store>)
    ensures id !in s.budgets ==> r == Err(NotFound("Budget not found"))
    ensures id in s.budgets && s.budgets[id].owner != user ==> r == Err(Unauthorized("Unauthorized access to budget"))
    ensures r.Ok? <==> id in s.budgets && s.budgets[id].owner == user
    ensures r.Ok? ==> r.value == s.(budgets := s.budgets - {id})
  {
    if id !in s.budgets then Err(NotFound("Budget not found"))
    else if s.budgets[id].owner != user then Err(Unauthorized("Unauthorized access to budget"))
    else Ok(s.(budgets := s.budgets - {id}))
  }

  /** Create, update and delete all keep budgets unique per user, category and month. */
  lemma CreateBudgetKeepsUnique(s: Store, user: UserId, input: BudgetInput)
    requires Fresh(s) && UniqueBudgets(s.budgets)
    ensures CreateBudget(s, user, input).Ok? ==> UniqueBudgets(CreateBudget(s, user, input).value.budgets)
  {
    if CreateBudget(s, user, input).Ok? {
      var b := CreateBudget(s, user, input).value.budgets;
      forall j, k | j in b && k in b && j != k
        ensures (b[j].owner, b[j].category, b[j].month) != (b[k].owner, b[k].category, b[k].month)
      {
        if j == s.nextId {
          assert b[k] == s.budgets[k];
        } else if k == s.nextId {
          assert b[j] == s.budgets[j];
        }
      }
    }
  }

  lemma UpdateBudgetKeepsUnique(s: Store, user: UserId, id: Id, amount: int)
    requires UniqueBudgets(s.budgets)
    ensures UpdateBudget(s, user, id, amount).Ok? ==> UniqueBudgets(UpdateBudget(s, user, id, amount).value.budgets)
  {
    if UpdateBudget(s, user, id, amount).Ok? {
      var b := UpdateBudget(s, user, id, amount).value.budgets;
      forall j, k | j in b && k in b && j != k
        ensures (b[j].owner, b[j].category, b[j].month) != (b[k].owner, b[k].category, b[k].month)
      {
        assert (b[j].owner, b[j].category, b[j].month) == (s.budgets[j].owner, s.budgets[j].category, s.budgets[j].month);
        assert (b[k].owner, b[k].category, b[k].month) == (s.budgets[k].owner, s.budgets[k].category, s.budgets[k].month);
      }
    }
  }

  lemma DeleteBudgetKeepsUnique(s: Store, user: UserId, id: Id)
    requires UniqueBudgets(s.budgets)
    ensures DeleteBudget(s, user, id).Ok? ==> UniqueBudgets(DeleteBudget(s, user, id).value.budgets)
  {
  }

  /** Listing test: the budget's month field has the requested month and year. */
  predicate InMonth(b: Budget, month: int, year: int) {
    b.month.month == month && b.month.year == year
  }

  /** `getBudgets`: the user's budgets in repository order, filtered to one
      month when both month and year are given. */
  function BudgetsFor(all: seq<Budget>, month: Option<int>, year: Option<int>): (r: seq<Budget>)
    ensures month.None? || year.None? ==> r == all
    ensures month.Some? && year.Some? ==> forall b :: b in r <==> b in all && InMonth(b, month.value, year.value)
    ensures |r| <= |all|
  {
    if month.None? || year.None? || all == [] then all
    else (if InMonth(all[0], month.value, year.value) then [all[0]] else []) + BudgetsFor(all[1..], month, year)
  }

  /** The filter keeps the repository order: it distributes over concatenation. */
  lemma {:induction false} BudgetsForAppend(xs: seq<Budget>, ys: seq<Budget>, month: Option<int>, year: Option<int>)
    ensures BudgetsFor(xs + ys, month, year) == BudgetsFor(xs, month, year) + BudgetsFor(ys, month, year)
  {
    if xs == [] {
      assert xs + ys == ys;
    } else if month.Some? && year.Some? {
      assert (xs + ys)[0] == xs[0];
      assert (xs + ys)[1..] == xs[1..] + ys;
      BudgetsForAppend(xs[1..], ys, month, year);
    }
  }
}

=== FILE: categories.dfy ===
/** CategoryController: creation with type and nesting-depth validation, the
    deletion guard, and the root-only listing; plus the lookup-or-create of a
    well-known category by name that the debt and saving cascades share. */
module Categories {
  import opened Wrappers
  import opened Entities
  import opened JavaText
  import opened Forest

  /** Request body of `createCategory` (CategoryDTO). */
  datatype CategoryInput = CategoryInput(
    name: string,
    kind: Option<string>,
    parentId: Option<Id>,
    depth: Option<int>)

  predicate IsCategoryType(t: string) {
    t == "INCOME" || t == "EXPENSE" || t == "BUDGET"
  }

  /** A child agrees with its parent on owner and type, and its quota is one
      less than a limited parent's. */
  predicate Agrees(parent: Category, child: Category) {
    && parent.owner == child.owner
    && parent.kind == child.kind
    && (parent.depth.Some? ==> child.depth == Some(parent.depth.value - 1))
  }

  predicate ParentsAgree(a: map<Id, Category>) {
    forall c :: c in a && a[c].parent.Some? && a[c].parent.value in a ==> Agrees(a[a[c].parent.value], a[c])
  }

  /** The structural invariants of the per-user forest. */
  predicate ForestInvariant(a: map<Id, Category>) {
    WellFormed(a) && ParentsAgree(a)
  }

  /** The request names one of the three category types, in any case. */
  predicate TypeGiven(input: CategoryInput) {
    input.kind.Some? && !TrimIsEmpty(input.kind.value) && IsCategoryType(ToUpper(input.kind.value))
  }

  /** Why the request is refused, in the order the handler checks. */
  function CreateCategoryError(s: Store, user: UserId, input: CategoryInput): Option<Error> {
    if input.kind.None? || TrimIsEmpty(input.kind.value) then
      Some(Invalid("Category type is required"))
    else if !IsCategoryType(ToUpper(input.kind.value)) then
      Some(Invalid("Invalid category type. Must be INCOME, EXPENSE, or BUDGET"))
    else if input.parentId.None? then None
    else if input.parentId.value !in s.categories then Some(NotFound("Parent category not found"))
    else
      var parent := s.categories[input.parentId.value];
      if parent.owner != user then Some(Invalid("Invalid parent category"))
      else if parent.kind.None? then Some(NullReference)
      else if parent.kind.value != ToUpper(input.kind.value) then
        Some(Invalid("Child category type must match parent category type"))
      else if parent.depth.Some? && parent.depth.value <= 0 then
        Some(Invalid("Parent category does not allow further nesting"))
      else None
  }

  /** `createCategory`.  The new node gets id `nextId`; under a parent it is
      appended to the parent's children and inherits the parent's quota
      minus one when the parent has one. */
  function CreateCategory(s: Store, user: UserId, input: CategoryInput): (r: Result<Store>)
    ensures input.kind.None? || TrimIsEmpty(input.kind.value) ==> r == Err(Invalid("Category type is required"))
    ensures input.kind.Some? && !TrimIsEmpty(input.kind.value) && !IsCategoryType(ToUpper(input.kind.value)) ==>
      r == Err(Invalid("Invalid category type. Must be INCOME, EXPENSE, or BUDGET"))
    ensures TypeGiven(input) && input.parentId.Some? ==>
      var p := input.parentId.value;
      && (p !in s.categories ==> r == Err(NotFound("Parent category not found")))
      && (p in s.categories && s.categories[p].owner != user ==> r == Err(Invalid("Invalid parent category")))
      && (p in s.categories && s.categories[p].owner == user && s.categories[p].kind.None? ==> r == Err(NullReference))
      && (p in s.categories && s.categories[p].owner == user && s.categories[p].kind.Some?
          && s.categories[p].kind.value != ToUpper(input.kind.value) ==>
            r == Err(Invalid("Child category type must match parent category type")))
      && (p in s.categories && s.categories[p].owner == user && s.categories[p].kind == Some(ToUpper(input.kind.value))
          && s.categories[p].depth.Some? && s.categories[p].depth.value <= 0 ==>
            r == Err(Invalid("Parent category does not allow further nesting")))
    ensures r.Ok? <==>
      && TypeGiven(input)
      && (input.parentId.Some? ==>
            var p := input.parentId.value;
            && p in s.categories && s.categories[p].owner == user
            && s.categories[p].kind == Some(ToUpper(input.kind.value))
            && (s.categories[p].depth.None? || s.categories[p].depth.value > 0))
    ensures r.Ok? ==> r.value.categories.Keys == s.categories.Keys + {s.nextId}
    ensures r.Ok? ==>
      var c := r.value.categories[s.nextId];
      && r.value == s.(categories := r.value.categories, nextId := s.nextId + 1)
      && input.kind.Some? && IsCategoryType(ToUpper(input.kind.value))
      && c == Category(user, input.name, Some(ToUpper(input.kind.value)), input.parentId, [], c.depth)
      && (input.parentId.None? ==> c.depth == input.depth)
    ensures r.Ok? && input.parentId.Some? ==>
      && input.parentId.value in s.categories
      && var parent := s.categories[input.parentId.value];
         var c := r.value.categories[s.nextId];
      && parent.owner == user
      && parent.kind == c.kind
      && (parent.depth.None? || parent.depth.value > 0)
      && c.depth == (if parent.depth.Some? then Some(parent.depth.value - 1) else input.depth)
      && (parent.depth.Some? ==> c.depth.value >= 0)
    ensures Fresh(s) && r.Ok? ==>
      && s.nextId !in s.categories
      && (forall k :: k in s.categories && Some(k) != input.parentId ==> r.value.categories[k] == s.categories[k])
      && (input.parentId.Some? ==>
            var p := input.parentId.value;
            r.value.categories[p] == s.categories[p].(children := s.categories[p].children + [s.nextId]))
  {
    match CreateCategoryError(s, user, input)
    case Some(e) => Err(e)
    case None =>
      var t := ToUpper(input.kind.value);
      var id := s.nextId;
      match input.parentId
      case None =>
        Ok(s.(categories := s.categories[id := Category(user, input.name, Some(t), None, [], input.depth)],
              nextId := id + 1))
      case Some(p) =>
        var parent := s.categories[p];
        var depth := if parent.depth.Some? then Some(parent.depth.value - 1) else input.depth;
        Ok(s.(categories := s.categories[p := parent.(children := parent.children + [id])]
                                        [id := Category(user, input.name, Some(t), Some(p), [], depth)],
              nextId := id + 1))
  }

  /** A parent whose quota is exhausted accepts no child. */
  lemma ZeroQuotaRejectsChildren(s: Store, user: UserId, input: CategoryInput)
    requires Fresh(s)
    requires input.parentId.Some? && input.parentId.value in s.categories
    requires s.categories[input.parentId.value].depth == Some(0)
    ensures CreateCategory(s, user, input).Err?
  {
  }

  /** Creation keeps the forest well formed and keeps the owner, type and
      quota relations between every parent and child. */
  lemma CreateCategoryPreservesInvariant(s: Store, user: UserId, input: CategoryInput)
    requires Fresh(s) && ForestInvariant(s.categories)
    ensures var r := CreateCategory(s, user, input);
            r.Ok? ==> ForestInvariant(r.value.categories) && Fresh(r.value)
  {
    var r := CreateCategory(s, user, input);
    if r.Ok? {
      var id := s.nextId;
      var c := r.value.categories[id];
      assert IdsBelow(s.categories, id);
      match input.parentId
      case None =>
        assert r.value.categories == s.categories[id := c];
        AddRootPreserves(s.categories, id, c);
      case Some(p) =>
        assert r.value.categories == WithChild(s.categories, p, id, c);
        AddChildPreserves(s.categories, p, id, c);
    }
  }

  predicate IdsBelow(a: map<Id, Category>, id: Id) {
    forall k :: k in a ==> k < id
  }

  /** Adding a childless root under a fresh id keeps the invariants. */
  lemma AddRootPreserves(a: map<Id, Category>, id: Id, c: Category)
    requires ForestInvariant(a) && IdsBelow(a, id)
    requires c.parent.None? && c.children == []
    ensures ForestInvariant(a[id := c])
  {
  }

  /** The arena after a fresh childless node `id` is attached under `p`. */
  function WithChild(a: map<Id, Category>, p: Id, id: Id, c: Category): map<Id, Category>
    requires p in a
  {
    a[p := a[p].(children := a[p].children + [id])][id := c]
  }

  lemma AddChildPreserves(a: map<Id, Category>, p: Id, id: Id, c: Category)
    requires ForestInvariant(a) && IdsBelow(a, id) && p in a
    requires c.parent == Some(p) && c.children == [] && Agrees(a[p], c)
    ensures ForestInvariant(WithChild(a, p, id, c))
  {
    AddChildOrdered(a, p, id, c);
    AddChildBack(a, p, id, c);
    AddChildParents(a, p, id, c);
    AddChildDistinct(a, p, id, c);
  }

  lemma AddChildOrdered(a: map<Id, Category>, p: Id, id: Id, c: Category)
    requires ChildLinksOrdered(a) && IdsBelow(a, id) && p in a
    requires c.children == []
    ensures ChildLinksOrdered(WithChild(a, p, id, c))
  {
    var a' := WithChild(a, p, id, c);
    forall n, i | n in a' && 0 <= i < |a'[n].children|
      ensures a'[n].children[i] in a' && n < a'[n].children[i]
    {
      if n == p && i == |a[p].children| {
        assert a'[n].children[i] == id;
      } else {
        assert n != id && a'[n].children[i] == a[n].children[i];
      }
    }
  }

  lemma AddChildBack(a: map<Id, Category>, p: Id, id: Id, c: Category)
    requires WellFormed(a) && IdsBelow(a, id) && p in a
    requires c.parent == Some(p) && c.children == []
    ensures ChildLinksOrdered(WithChild(a, p, id, c))
    ensures ChildLinksBack(WithChild(a, p, id, c))
  {
    AddChildOrdered(a, p, id, c);
    var a' := WithChild(a, p, id, c);
    forall n, i | n in a' && 0 <= i < |a'[n].children|
      ensures a'[a'[n].children[i]].parent == Some(n)
    {
      if n == p && i == |a[p].children| {
        assert a'[n].children[i] == id;
      } else {
        var k := a[n].children[i];
        assert n != id && a'[n].children[i] == k;
        assert k in a && k != id;
      }
    }
  }

  lemma AddChildParents(a: map<Id, Category>, p: Id, id: Id, c: Category)
    requires WellFormed(a) && ParentsAgree(a) && IdsBelow(a, id) && p in a
    requires c.parent == Some(p) && c.children == [] && Agrees(a[p], c)
    ensures ParentLinksBack(WithChild(a, p, id, c))
    ensures ParentsAgree(WithChild(a, p, id, c))
  {
    var a' := WithChild(a, p, id, c);
    forall k | k in a' && a'[k].parent.Some?
      ensures a'[k].parent.value in a' && k in a'[a'[k].parent.value].children
    {
      if k != id {
        var q := a[k].parent.value;
        assert a'[k].parent == a[k].parent && q in a;
        assert k in a[q].children;
        assert q != id;
        if q == p {
          assert a'[q].children == a[q].children + [id];
        }
      } else {
        assert a'[p].children == a[p].children + [id];
      }
    }
  }

  lemma AddChildDistinct(a: map<Id, Category>, p: Id, id: Id, c: Category)
    requires ChildLinksOrdered(a) && ChildrenDistinct(a) && IdsBelow(a, id) && p in a
    requires c.children == []
    ensures ChildrenDistinct(WithChild(a, p, id, c))
  {
    var a' := WithChild(a, p, id, c);
    forall n | n in a' ensures NoDup(a'[n].children) {
      if n == p {
        assert forall j :: 0 <= j < |a[p].children| ==> a[p].children[j] < id;
        NoDupConcat(a[p].children, [id]);
      }
    }
  }

  /** `expenseRepository.existsByCategoryId`, `incomeRepository.existsByCategoryId`
      and `budgetRepository.existsByCategoryId`. */
  predicate Referenced(s: Store, c: Id) {
    || (exists k :: k in s.expenses && s.expenses[k].category == Some(c))
    || (exists k :: k in s.incomes && s.incomes[k].category == Some(c))
    || (exists k :: k in s.budgets && s.budgets[k].category == c)
  }

  /** Position of the first category of `order`, from `from` on, that is in use. */
  function FirstReferenced(s: Store, order: seq<Id>, from: nat): (r: Option<nat>)
    requires from <= |order|
    ensures r.None? <==> forall i :: from <= i < |order| ==> !Referenced(s, order[i])
    ensures r.Some? ==> from <= r.value < |order| && Referenced(s, order[r.value])
    ensures r.Some? ==> forall i :: from <= i < r.value ==> !Referenced(s, order[i])
    decreases |order| - from
  {
    if from == |order| then None
    else if Referenced(s, order[from]) then Some(from)
    else FirstReferenced(s, order, from + 1)
  }

  /** The arena after the subtree `gone` is removed, with the removed root
      dropped from its parent's children. */
  function Detach(a: map<Id, Category>, root: Id, gone: set<Id>): map<Id, Category> {
    map k | k in a && k !in gone :: a[k].(children := Without(a[k].children, root))
  }

  function Without(cs: seq<Id>, x: Id): (r: seq<Id>)
    ensures forall y :: y in r <==> y in cs && y != x
    ensures |r| <= |cs|
  {
    if cs == [] then []
    else (if cs[0] == x then [] else [cs[0]]) + Without(cs[1..], x)
  }

  /** `deleteCategory`: refused while any node of the subtree is referenced
      by an expense, an income or a budget (the message names the first such
      node in preorder); otherwise the whole subtree goes. */
  function DeleteCategory(s: Store, user: UserId, id: Id): (r: Result<Store>)
    requires ChildLinksOrdered(s.categories)
    ensures id !in s.categories ==> r == Err(NotFound("Category not found"))
    ensures id in s.categories && s.categories[id].owner != user ==>
              r == Err(Unauthorized("Unauthorized to delete this category"))
    ensures id in s.categories && s.categories[id].owner == user ==>
      var order := Preorder(s.categories, id);
      && (r.Err? <==> exists i :: 0 <= i < |order| && Referenced(s, order[i]))
      && (r.Err? ==> exists i :: 0 <= i < |order| && Referenced(s, order[i])
                       && (forall j :: 0 <= j < i ==> !Referenced(s, order[j]))
                       && r.error == InUse(s.categories[order[i]].name))
      && (r.Ok? ==> r.value.categories.Keys == s.categories.Keys - (set k | k in order)
                    && (forall k :: k in r.value.categories ==>
                          r.value.categories[k] == s.categories[k].(children := Without(s.categories[k].children, id)))
                    && r.value == s.(categories := r.value.categories))
  {
    if id !in s.categories then Err(NotFound("Category not found"))
    else if s.categories[id].owner != user then Err(Unauthorized("Unauthorized to delete this category"))
    else
      var order := Preorder(s.categories, id);
      match FirstReferenced(s, order, 0)
      case Some(i) => Err(InUse(s.categories[order[i]].name))
      case None => Ok(s.(categories := Detach(s.categories, id, set k | k in order)))
  }

  /** A successful delete removes exactly the category and its descendants. */
  lemma DeleteRemovesSubtree(s: Store, user: UserId, id: Id)
    requires WellFormed(s.categories)
    ensures var r := DeleteCategory(s, user, id);
            r.Ok? ==> forall k :: k in r.value.categories <==> k in s.categories && !Reaches(s.categories, k, id)
  {
    if id in s.categories {
      CollectHierarchySpec(s.categories, id);
    }
  }

  /** Deleting a subtree leaves a forest with the same invariants. */
  lemma DeletePreservesInvariant(s: Store, user: UserId, id: Id)
    requires ForestInvariant(s.categories)
    ensures var r := DeleteCategory(s, user, id);
            r.Ok? ==> ForestInvariant(r.value.categories)
  {
    var r := DeleteCategory(s, user, id);
    if r.Ok? {
      var a := s.categories;
      var gone := set k | k in Preorder(a, id);
      CollectHierarchySpec(a, id);
      DetachOrdered(a, id, gone);
      DetachParents(a, id, gone);
      DetachAgrees(a, id, gone);
      forall n | n in Detach(a, id, gone) ensures NoDup(Detach(a, id, gone)[n].children) {
        WithoutNoDup(a[n].children, id);
      }
    }
  }

  /** What the removed set is: the root and its descendants. */
  ghost predicate IsSubtree(a: map<Id, Category>, id: Id, gone: set<Id>) {
    forall k :: k in gone <==> k in a && Reaches(a, k, id)
  }

  lemma DetachOrdered(a: map<Id, Category>, id: Id, gone: set<Id>)
    requires WellFormed(a) && id in a && IsSubtree(a, id, gone)
    ensures ChildLinksOrdered(Detach(a, id, gone))
    ensures ChildLinksBack(Detach(a, id, gone))
  {
    var a' := Detach(a, id, gone);
    forall n, i | n in a' && 0 <= i < |a'[n].children|
      ensures a'[n].children[i] in a' && n < a'[n].children[i]
      ensures a'[a'[n].children[i]].parent == Some(n)
    {
      var k := a'[n].children[i];
      assert k in a[n].children && k != id;
      var j :| 0 <= j < |a[n].children| && a[n].children[j] == k;
      assert k in a && a[k].parent == Some(n) && n < k;
      assert n !in gone;
    }
  }

  lemma DetachParents(a: map<Id, Category>, id: Id, gone: set<Id>)
    requires WellFormed(a) && id in a && IsSubtree(a, id, gone)
    ensures ParentLinksBack(Detach(a, id, gone))
  {
    var a' := Detach(a, id, gone);
    forall k | k in a' && a'[k].parent.Some?
      ensures a'[k].parent.value in a' && k in a'[a'[k].parent.value].children
    {
      var q := a[k].parent.value;
      assert k in a[q].children;
      var j :| 0 <= j < |a[q].children| && a[q].children[j] == k;
      assert q < k;
      assert q !in gone;
      assert k != id;
    }
  }

  lemma DetachAgrees(a: map<Id, Category>, id: Id, gone: set<Id>)
    requires ParentsAgree(a)
    ensures ParentsAgree(Detach(a, id, gone))
  {
    var a' := Detach(a, id, gone);
    forall k | k in a' && a'[k].parent.Some? && a'[k].parent.value in a'
      ensures Agrees(a'[a'[k].parent.value], a'[k])
    {
      var q := a[k].parent.value;
      assert Agrees(a[q], a[k]);
    }
  }

  lemma {:induction false} WithoutNoDup(cs: seq<Id>, x: Id)
    requires NoDup(cs)
    ensures NoDup(Without(cs, x))
  {
    if cs != [] {
      assert NoDup(cs[1..]) by {
        forall i, j | 0 <= i < j < |cs[1..]| ensures cs[1..][i] != cs[1..][j] {
          assert cs[1..][i] == cs[i + 1] && cs[1..][j] == cs[j + 1];
        }
      }
      WithoutNoDup(cs[1..], x);
      assert cs[0] !in cs[1..];
      NoDupConcat(if cs[0] == x then [] else [cs[0]], Without(cs[1..], x));
    }
  }

  /** Keep-test of the root listing: parentless, and of the requested type
      when a non-blank type filter is given. */
  predicate Listed(c: Category, kind: Option<string>) {
    && c.parent.None?
    && (kind.Some? && !IsBlank(kind.value) ==> c.kind == Some(ToUpper(kind.value)))
  }

  /** `getCategories`: the user's categories (in repository order) filtered
      to the roots, and to one type when a filter is given. */
  function RootCategories(all: seq<Category>, kind: Option<string>): (r: seq<Category>)
    ensures forall c :: c in r <==> c in all && Listed(c, kind)
    ensures |r| <= |all|
  {
    if all == [] then []
    else (if Listed(all[0], kind) then [all[0]] else []) + RootCategories(all[1..], kind)
  }

  /** The listing keeps the repository order: it distributes over concatenation. */
  lemma {:induction false} RootCategoriesAppend(xs: seq<Category>, ys: seq<Category>, kind: Option<string>)
    ensures RootCategories(xs + ys, kind) == RootCategories(xs, kind) + RootCategories(ys, kind)
  {
    if xs != [] {
      var head := if Listed(xs[0], kind) then [xs[0]] else [];
      assert (xs + ys)[0] == xs[0];
      assert (xs + ys)[1..] == xs[1..] + ys;
      RootCategoriesAppend(xs[1..], ys, kind);
      calc {
        RootCategories(xs + ys, kind);
        head + RootCategories(xs[1..] + ys, kind);
        head + (RootCategories(xs[1..], kind) + RootCategories(ys, kind));
        (head + RootCategories(xs[1..], kind)) + RootCategories(ys, kind);
      }
    } else {
      assert xs + ys == ys;
    }
  }

  predicate NamedFor(c: Category, user: UserId, name: string) {
    c.owner == user && EqualsIgnoreCase(name, c.name)
  }

  /** The earliest-created category of `user`, among the ids below `n`,
      whose name equals `name` ignoring case.  The handler takes the first
      match in the order `findByUserId` returns, which no query fixes; the
      model takes that order to be creation order. */
  function FirstNamed(a: map<Id, Category>, user: UserId, name: string, n: nat): (r: Option<Id>)
    ensures r.Some? ==> r.value < n && r.value in a && NamedFor(a[r.value], user, name)
    ensures r.Some? ==> forall k :: k < r.value && k in a ==> !NamedFor(a[k], user, name)
    ensures r.None? ==> forall k :: k < n && k in a ==> !NamedFor(a[k], user, name)
  {
    if n == 0 then None
    else match FirstNamed(a, user, name, n - 1)
      case Some(k) => Some(k)
      case None => if n - 1 in a && NamedFor(a[n - 1], user, name) then Some(n - 1) else None
  }

  /** Raising the bound past every id does not change the lookup. */
  lemma {:induction false} FirstNamedBound(a: map<Id, Category>, user: UserId, name: string, n: nat, n': nat)
    requires forall k :: k in a ==> k < n
    requires n <= n'
    ensures FirstNamed(a, user, name, n') == FirstNamed(a, user, name, n)
    decreases n'
  {
    if n' > n {
      FirstNamedBound(a, user, name, n, n' - 1);
    }
  }

  /** The lookup-or-create of the debt and saving cascades: the first of the
      user's categories named `name` (ignoring case), or else a new root
      category with that name, type `kind` and a nesting quota of 0. */
  function NamedCategory(s: Store, user: UserId, name: string, kind: Option<string>): (r: (Store, Id))
    ensures var (s', id) := r;
      && id in s'.categories
      && s'.accounts == s.accounts && s'.expenses == s.expenses && s'.debts == s.debts
      && s'.savings == s.savings && s'.incomes == s.incomes && s'.budgets == s.budgets
    ensures Fresh(s) ==> Fresh(r.0) && s.nextId <= r.0.nextId
    ensures Fresh(s) ==>
      var (s', id) := r;
      match FirstNamed(s.categories, user, name, s.nextId)
      case Some(k) => s' == s && id == k
      case None =>
        && id == s.nextId && s'.nextId == s.nextId + 1
        && s'.categories == s.categories[id := Category(user, name, kind, None, [], Some(0))]
  {
    match FirstNamed(s.categories, user, name, s.nextId)
    case Some(k) => (s, k)
    case None =>
      var id := s.nextId;
      (s.(categories := s.categories[id := Category(user, name, kind, None, [], Some(0))], nextId := id + 1), id)
  }

  /** When the user has no matching category the one created is found by the
      next lookup, so the cascade never creates two. */
  lemma NamedCategoryStable(s: Store, user: UserId, name: string, kind: Option<string>)
    requires Fresh(s)
    ensures var (s', id) := NamedCategory(s, user, name, kind);
            NamedCategory(s', user, name, kind) == (s', id)
  {
    var (s', id) := NamedCategory(s, user, name, kind);
    if FirstNamed(s.categories, user, name, s.nextId).None? {
      assert NamedFor(s'.categories[id], user, name);
      var f := FirstNamed(s'.categories, user, name, s'.nextId);
      assert f.Some?;
    }
  }

  /** The lazily created category is a root with no children, so it keeps the
      forest invariants. */
  lemma NamedCategoryPreservesInvariant(s: Store, user: UserId, name: string, kind: Option<string>)
    requires Fresh(s) && ForestInvariant(s.categories)
    ensures var (s', _) := NamedCategory(s, user, name, kind);
            Fresh(s') && ForestInvariant(s'.categories)
  {
    var (s', id) := NamedCategory(s, user, name, kind);
    if s' != s {
      AddRootPreserves(s.categories, id, s'.categories[id]);
    }
  }
}

=== FILE: consistency.dfy ===
/** The ledger invariant that ties the incremental balance bookkeeping of
    the expense, debt and saving handlers to the full recompute of
    `recalculateBalance`: every account's balance is its opening balance
    plus the signed total of the expenses booked on it. */
module Consistency {
  import opened Wrappers
  import opened Dates
  import opened Entities
  import opened Ledger
  import opened Expenses
  import opened Accounts
  import opened Debts
  import opened Savings
  import opened Incomes

  /** Every account's balance is its opening balance plus its signed expense total. */
  predicate Consistent(s: Store, opening: map<Id, int>) {
    forall a :: a in s.accounts ==>
      a in opening && s.accounts[a].balance == opening[a] + ExpenseDelta(s.accounts[a].kind, LinkedTotal(s, a))
  }

  /** What an expense, if any, contributes to the total of account `a`. */
  function Part(e: Option<Expense>, a: Id): int {
    if e.Some? then WeightOf(LinkedTo(a), e.value) else 0
  }

  /** A change that moves each balance by the signed change of its expense
      total, and changes no account type, keeps the invariant. */
  lemma ConsistentStep(s: Store, s': Store, opening: map<Id, int>)
    requires Consistent(s, opening)
    requires s'.accounts.Keys == s.accounts.Keys
    requires forall a :: a in s.accounts ==>
      && s'.accounts[a].kind == s.accounts[a].kind
      && s'.accounts[a].balance - s.accounts[a].balance
         == ExpenseDelta(s.accounts[a].kind, LinkedTotal(s', a) - LinkedTotal(s, a))
    ensures Consistent(s', opening)
  {
  }

  /** Writing expense `k` from `before` to `after` moves every account total
      by the difference of the two contributions. */
  lemma TotalsAfterWrite(s: Store, s': Store, k: Id, before: Option<Expense>, after: Option<Expense>)
    requires Fresh(s) && s.nextId <= s'.nextId && k < s'.nextId
    requires before == (if k in s.expenses then Some(s.expenses[k]) else None)
    requires after.Some? ==> s'.expenses == s.expenses[k := after.value]
    requires after.None? ==> s'.expenses == s.expenses - {k}
    ensures forall a :: LinkedTotal(s', a) == LinkedTotal(s, a) - Part(before, a) + Part(after, a)
  {
    forall a ensures LinkedTotal(s', a) == LinkedTotal(s, a) - Part(before, a) + Part(after, a) {
      SumOverBound(s.expenses, s.nextId, s'.nextId, LinkedTo(a));
      if after.Some? {
        SumOverUpdate(s.expenses, s'.nextId, k, after.value, LinkedTo(a));
      } else {
        SumOverRemove(s.expenses, s'.nextId, k, LinkedTo(a));
      }
    }
  }

  /** Growing the id allocator with the expense table untouched keeps every total. */
  lemma TotalsUnchanged(s: Store, s': Store)
    requires Fresh(s) && s.nextId <= s'.nextId && s'.expenses == s.expenses
    ensures forall a :: LinkedTotal(s', a) == LinkedTotal(s, a)
  {
    forall a ensures LinkedTotal(s', a) == LinkedTotal(s, a) {
      SumOverBound(s.expenses, s.nextId, s'.nextId, LinkedTo(a));
    }
  }

  /** Undoing the booking of `before` and making the booking of `after`
      moves each balance by the signed difference of their contributions. */
  lemma Rebook(accounts: map<Id, Account>, before: Option<Expense>, after: Option<Expense>, a: Id)
    requires a in accounts
    ensures var r := ApplyLinked(ReverseLinked(accounts, if before.Some? then before.value.account else None,
                                                          if before.Some? then before.value.amount else 0),
                                 if after.Some? then after.value.account else None,
                                 if after.Some? then after.value.amount else 0);
            && r.Keys == accounts.Keys
            && r[a].kind == accounts[a].kind
            && r[a].balance - accounts[a].balance == ExpenseDelta(accounts[a].kind, Part(after, a) - Part(before, a))
  {
  }

  /** The ledger operations the invariant is proved for. */
  datatype Op =
    | CreateExpenseOp(user: UserId, input: ExpenseInput)
    | UpdateExpenseOp(user: UserId, id: Id, input: ExpenseInput)
    | DeleteExpenseOp(user: UserId, id: Id)
    | RecordPaymentOp(user: UserId, debt: Id, payment: PaymentInput, today: Date)
    | UpdatePaymentOp(user: UserId, debt: Id, paymentId: Id, payment: PaymentInput, today: Date)
    | DeletePaymentOp(user: UserId, debt: Id, paymentId: Id)
    | ContributionOp(user: UserId, saving: Id, contribution: ContributionInput, today: Date)
    | CreateIncomeOp(user: UserId, income: IncomeInput)
    | UpdateIncomeOp(user: UserId, id: Id, income: IncomeInput)
    | DeleteIncomeOp(user: UserId, id: Id)

  function Outcome(op: Op, s: Store): Result<Store> {
    match op
    case CreateExpenseOp(u, input) => CreateExpense(s, u, input)
    case UpdateExpenseOp(u, id, input) => UpdateExpense(s, u, id, input)
    case DeleteExpenseOp(u, id) => DeleteExpense(s, u, id)
    case RecordPaymentOp(u, d, p, today) => RecordPayment(s, u, d, p, today)
    case UpdatePaymentOp(u, d, k, p, today) => UpdatePayment(s, u, d, k, p, today)
    case DeletePaymentOp(u, d, k) => DeletePayment(s, u, d, k)
    case ContributionOp(u, g, c, today) => RecordContribution(s, u, g, c, today)
    case CreateIncomeOp(u, input) => CreateIncome(s, u, input)
    case UpdateIncomeOp(u, id, input) => UpdateIncome(s, u, id, input)
    case DeleteIncomeOp(u, id) => DeleteIncome(s, u, id)
  }

  /** One request: its new state, or the old one when it is refused. */
  function Step(s: Store, op: Op): Store {
    match Outcome(op, s)
    case Ok(s') => s'
    case Err(_) => s
  }

  /** A sequence of requests, one after another. */
  function Run(s: Store, ops: seq<Op>): Store
    decreases |ops|
  {
    if ops == [] then s else Run(Step(s, ops[0]), ops[1..])
  }

  /** A write of expense `k` from `before` to `after`, booked as such, keeps the invariant. */
  lemma RebookKeeps(s: Store, s': Store, k: Id, before: Option<Expense>, after: Option<Expense>, opening: map<Id, int>)
    requires Fresh(s) && Consistent(s, opening) && s.nextId <= s'.nextId && k < s'.nextId
    requires before == (if k in s.expenses then Some(s.expenses[k]) else None)
    requires after.Some? ==> s'.expenses == s.expenses[k := after.value]
    requires after.None? ==> s'.expenses == s.expenses - {k}
    requires s'.accounts == ApplyLinked(ReverseLinked(s.accounts, if before.Some? then before.value.account else None,
                                                                 if before.Some? then before.value.amount else 0),
                                        if after.Some? then after.value.account else None,
                                        if after.Some? then after.value.amount else 0)
    ensures Consistent(s', opening)
  {
    TotalsAfterWrite(s, s', k, before, after);
    forall a | a in s.accounts
      ensures s'.accounts[a].kind == s.accounts[a].kind
      ensures s'.accounts[a].balance - s.accounts[a].balance
              == ExpenseDelta(s.accounts[a].kind, LinkedTotal(s', a) - LinkedTotal(s, a))
    {
      Rebook(s.accounts, before, after, a);
    }
    ConsistentStep(s, s', opening);
  }

  lemma CreateExpenseKeeps(s: Store, user: UserId, input: ExpenseInput, opening: map<Id, int>)
    requires Fresh(s) && Consistent(s, opening)
    requires CreateExpense(s, user, input).Ok?
    ensures Fresh(CreateExpense(s, user, input).value)
    ensures Consistent(CreateExpense(s, user, input).value, opening)
  {
    var s' := CreateExpense(s, user, input).value;
    var e := s'.expenses[s.nextId];
    assert s'.accounts == ApplyLinked(ReverseLinked(s.accounts, None, 0), e.account, e.amount);
    RebookKeeps(s, s', s.nextId, None, Some(e), opening);
  }

  lemma UpdateExpenseKeeps(s: Store, user: UserId, id: Id, input: ExpenseInput, opening: map<Id, int>)
    requires Fresh(s) && Consistent(s, opening)
    requires UpdateExpense(s, user, id, input).Ok?
    ensures Fresh(UpdateExpense(s, user, id, input).value)
    ensures Consistent(UpdateExpense(s, user, id, input).value, opening)
  {
    var s' := UpdateExpense(s, user, id, input).value;
    RebookKeeps(s, s', id, Some(s.expenses[id]), Some(s'.expenses[id]), opening);
  }

  lemma DeleteExpenseKeeps(s: Store, user: UserId, id: Id, opening: map<Id, int>)
    requires Fresh(s) && Consistent(s, opening)
    requires DeleteExpense(s, user, id).Ok?
    ensures Fresh(DeleteExpense(s, user, id).value)
    ensures Consistent(DeleteExpense(s, user, id).value, opening)
  {
    var s' := DeleteExpense(s, user, id).value;
    RebookKeeps(s, s', id, Some(s.expenses[id]), None, opening);
  }

  lemma RecordPaymentKeeps(s: Store, user: UserId, d: Id, p: PaymentInput, today: Date, opening: map<Id, int>)
    requires Fresh(s) && Consistent(s, opening)
    requires RecordPayment(s, user, d, p, today).Ok?
    ensures Consistent(RecordPayment(s, user, d, p, today).value, opening)
  {
    var s' := RecordPayment(s, user, d, p, today).value;
    var k := s'.nextId - 1;
    RebookKeeps(s, s', k, None, Some(s'.expenses[k]), opening);
  }

  lemma UpdatePaymentKeeps(s: Store, user: UserId, d: Id, k: Id, p: PaymentInput, today: Date, opening: map<Id, int>)
    requires Fresh(s) && Consistent(s, opening)
    requires UpdatePayment(s, user, d, k, p, today).Ok?
    ensures Fresh(UpdatePayment(s, user, d, k, p, today).value)
    ensures Consistent(UpdatePayment(s, user, d, k, p, today).value, opening)
  {
    var s' := UpdatePayment(s, user, d, k, p, today).value;
    RebookKeeps(s, s', k, Some(s.expenses[k]), Some(s'.expenses[k]), opening);
  }

  lemma DeletePaymentKeeps(s: Store, user: UserId, d: Id, k: Id, opening: map<Id, int>)
    requires Fresh(s) && Consistent(s, opening)
    requires DeletePayment(s, user, d, k).Ok?
    ensures Fresh(DeletePayment(s, user, d, k).value)
    ensures Consistent(DeletePayment(s, user, d, k).value, opening)
  {
    var s' := DeletePayment(s, user, d, k).value;
    RebookKeeps(s, s', k, Some(s.expenses[k]), None, opening);
  }

  lemma ContributionKeeps(s: Store, user: UserId, g: Id, c: ContributionInput, today: Date, opening: map<Id, int>)
    requires Fresh(s) && Consistent(s, opening)
    requires RecordContribution(s, user, g, c, today).Ok?
    ensures Consistent(RecordContribution(s, user, g, c, today).value, opening)
  {
    var s' := RecordContribution(s, user, g, c, today).value;
    var k := s'.nextId - 1;
    RebookKeeps(s, s', k, None, Some(s'.expenses[k]), opening);
  }

  lemma IncomeOpsKeep(s: Store, op: Op, opening: map<Id, int>)
    requires Fresh(s) && Consistent(s, opening)
    requires op.CreateIncomeOp? || op.UpdateIncomeOp? || op.DeleteIncomeOp?
    ensures Fresh(Step(s, op)) && Consistent(Step(s, op), opening)
  {
    var r := Outcome(op, s);
    if r.Ok? {
      TotalsUnchanged(s, r.value);
      ConsistentStep(s, r.value, opening);
    }
  }

  /** Every request, accepted or refused, keeps the allocator fresh and the
      balances equal to opening balance plus signed expense total. */
  lemma StepKeepsConsistent(s: Store, op: Op, opening: map<Id, int>)
    requires Fresh(s) && Consistent(s, opening)
    ensures Fresh(Step(s, op)) && Consistent(Step(s, op), opening)
  {
    if Outcome(op, s).Ok? {
      match op
      case CreateExpenseOp(u, input) => CreateExpenseKeeps(s, u, input, opening);
      case UpdateExpenseOp(u, id, input) => UpdateExpenseKeeps(s, u, id, input, opening);
      case DeleteExpenseOp(u, id) => DeleteExpenseKeeps(s, u, id, opening);
      case RecordPaymentOp(u, d, p, today) => RecordPaymentKeeps(s, u, d, p, today, opening);
      case UpdatePaymentOp(u, d, k, p, today) => UpdatePaymentKeeps(s, u, d, k, p, today, opening);
      case DeletePaymentOp(u, d, k) => DeletePaymentKeeps(s, u, d, k, opening);
      case ContributionOp(u, g, c, today) => ContributionKeeps(s, u, g, c, today, opening);
      case CreateIncomeOp(_, _) => IncomeOpsKeep(s, op, opening);
      case UpdateIncomeOp(_, _, _) => IncomeOpsKeep(s, op, opening);
      case DeleteIncomeOp(_, _) => IncomeOpsKeep(s, op, opening);
    }
  }

  lemma {:induction false} RunKeepsConsistent(s: Store, ops: seq<Op>, opening: map<Id, int>)
    requires Fresh(s) && Consistent(s, opening)
    ensures Fresh(Run(s, ops)) && Consistent(Run(s, ops), opening)
    decreases |ops|
  {
    if ops != [] {
      StepKeepsConsistent(s, ops[0], opening);
      RunKeepsConsistent(Step(s, ops[0]), ops[1..], opening);
    }
  }

  lemma {:induction false} SumOverEmpty(n: nat, w: Weight)
    ensures SumOver(map[], n, w) == 0
  {
    if n > 0 {
      SumOverEmpty(n - 1, w);
    }
  }

  /** The balances of a store with no expenses yet. */
  function Openings(s: Store): map<Id, int> {
    map a | a in s.accounts :: s.accounts[a].balance
  }

  /** Before any expense exists, the balances are their own openings. */
  lemma StartConsistent(s: Store)
    requires s.expenses == map[]
    ensures Consistent(s, Openings(s))
  {
    forall a | a in s.accounts ensures LinkedTotal(s, a) == 0 {
      SumOverEmpty(s.nextId, LinkedTo(a));
    }
  }

  /** After any sequence of requests, an account's balance is its opening
      balance plus the balance `recalculateBalance` rebuilds for it with no
      incomes; so a recompute that succeeds leaves it where it is. */
  lemma BalanceIsOpeningPlusRecompute(s: Store, ops: seq<Op>, user: UserId, a: Id, today: Date)
    requires Fresh(s) && s.expenses == map[] && ValidDate(today)
    requires a in Run(s, ops).accounts
    ensures a in s.accounts
    ensures Run(s, ops).accounts[a].balance == s.accounts[a].balance + RecomputedBalance(Run(s, ops), a, 0)
    ensures Recalculate(Run(s, ops), user, a, 0, today).Ok? ==>
      Run(s, ops).accounts[a].balance
      == s.accounts[a].balance + Recalculate(Run(s, ops), user, a, 0, today).value.accounts[a].balance
  {
    StartConsistent(s);
    RunKeepsConsistent(s, ops, Openings(s));
    assert a in Openings(s);
  }

  /** The handler's create without a category leaves the invariant broken:
      the balance has moved, the expense total has not. */
  lemma AsWrittenCreateBreaksConsistency(s: Store, user: UserId, input: ExpenseInput, opening: map<Id, int>)
    requires Fresh(s) && Consistent(s, opening)
    requires input.categoryId.None? && input.accountId.Some? && OwnsAccount(s, user, input.accountId.value)
    requires input.amount != 0
    ensures !Consistent(CreateExpenseAsWritten(s, user, input).0, opening)
  {
    var s' := CreateExpenseAsWritten(s, user, input).0;
    var a := input.accountId.value;
    TotalsUnchanged(s, s');
    assert a in s'.accounts && s'.accounts[a].kind == s.accounts[a].kind;
  }
}

=== FILE: dates.dfy ===
/** Calendar dates as `java.time.LocalDate` and `java.time.YearMonth` treat
    them: the proleptic Gregorian calendar, months 1..12, and the month
    lengths of the ISO chronology. */
module Dates {
  import opened Wrappers

  datatype Date = Date(year: int, month: int, day: int)

  /** Range of `java.time.Year` (Year.MIN_VALUE and Year.MAX_VALUE). */
  const MinYear: int := -999_999_999
  const MaxYear: int := 999_999_999

  /** The ISO leap-year rule: divisible by 4, except centuries not divisible by 400. */
  predicate IsLeapYear(year: int) {
    year % 4 == 0 && (year % 100 != 0 || year % 400 == 0)
  }

  /** `YearMonth.lengthOfMonth()`. */
  function DaysInMonth(year: int, month: int): (n: int)
    requires 1 <= month <= 12
    ensures 28 <= n <= 31
    ensures n < 30 <==> month == 2
  {
    if month == 2 then (if IsLeapYear(year) then 29 else 28)
    else if month == 4 || month == 6 || month == 9 || month == 11 then 30
    else 31
  }

  /** A date `LocalDate` can represent. */
  predicate ValidDate(d: Date) {
    MinYear <= d.year <= MaxYear && 1 <= d.month <= 12 && 1 <= d.day <= DaysInMonth(d.year, d.month)
  }

  /** Chronological order `a <= b` (LocalDate.compareTo). */
  predicate DateLe(a: Date, b: Date) {
    a.year < b.year
    || (a.year == b.year && (a.month < b.month || (a.month == b.month && a.day <= b.day)))
  }

  /** Number of months since year 0, used to state month arithmetic. */
  function MonthIndex(year: int, month: int): int {
    year * 12 + month - 1
  }

  /** Year and month of `d.minusMonths(1)`; the day is replaced by every caller. */
  function PrevMonth(year: int, month: int): (r: (int, int))
    requires 1 <= month <= 12
    ensures 1 <= r.1 <= 12
    ensures MonthIndex(r.0, r.1) == MonthIndex(year, month) - 1
  {
    if month == 1 then (year - 1, 12) else (year, month - 1)
  }

  /** `YearMonth.of(year, month)` followed by `atDay(1)` and `atEndOfMonth()`:
      the first and last day of a month.  `YearMonth.of` throws a
      `DateTimeException` for a month outside 1..12 or a year outside the
      range of `java.time.Year`. */
  function MonthWindow(year: int, month: int): (r: Result<(Date, Date)>)
    ensures r.Ok? <==> MinYear <= year <= MaxYear && 1 <= month <= 12
    ensures r.Err? ==> r.error == BadDate
    ensures r.Ok? ==> r.value.0 == Date(year, month, 1) && ValidDate(r.value.1)
    ensures r.Ok? ==> r.value.1.year == year && r.value.1.month == month
    ensures r.Ok? ==> DateLe(r.value.0, r.value.1)
  {
    if MinYear <= year <= MaxYear && 1 <= month <= 12 then
      Ok((Date(year, month, 1), Date(year, month, DaysInMonth(year, month))))
    else
      Err(BadDate)
  }

  /** The month window contains exactly the valid dates of that month. */
  lemma MonthWindowCoversMonth(year: int, month: int, d: Date)
    requires MonthWindow(year, month).Ok?
    requires ValidDate(d)
    ensures var (first, last) := MonthWindow(year, month).value;
            DateLe(first, d) && DateLe(d, last) <==> d.year == year && d.month == month
  {
  }
}

=== FILE: debts.dfy ===
/** DebtController: the payment cascade.  Recording a payment lowers the
    debt, counts down the pending instalments, files the payment as an
    expense in the user's "Debt Repayment" category and books it on an
    account when one is named; updating and deleting a payment undo their
    share of that.  All three run in one transaction, so a refused request
    changes nothing. */
module Debts {
  import opened Wrappers
  import opened Dates
  import opened Entities
  import opened Ledger
  import opened Categories

  /** Request body of the payment endpoints (DebtPaymentDTO). */
  datatype PaymentInput = PaymentInput(amount: int, date: Option<Date>, accountId: Option<Id>)

  const RepaymentCategory: string := "Debt Repayment"

  /** The instalment count after a payment: one fewer while any are pending. */
  function CountDown(pending: Option<int>): (r: Option<int>)
    ensures pending.None? ==> r.None?
    ensures pending.Some? && pending.value > 0 ==> r == Some(pending.value - 1)
    ensures pending.Some? && pending.value <= 0 ==> r == pending
    ensures pending.Some? && pending.value >= 0 ==> r.Some? && r.value >= 0
  {
    if pending.Some? && pending.value > 0 then Some(pending.value - 1) else pending
  }

  /** The instalment count after a payment is deleted: one more (Java `int`
      arithmetic) when both the pending and the total count are set. */
  function CountUp(d: Debt): (r: Option<int>)
    ensures d.emisPending.None? || d.totalEmis.None? ==> r == d.emisPending
    ensures d.emisPending.Some? && d.totalEmis.Some? && IntMin <= d.emisPending.value < IntMax ==>
      r == Some(d.emisPending.value + 1)
    ensures d.emisPending == Some(IntMax) && d.totalEmis.Some? ==> r == Some(IntMin)
  {
    if d.emisPending.Some? && d.totalEmis.Some? then Some(WrapInt(d.emisPending.value + 1)) else d.emisPending
  }

  function DateOr(date: Option<Date>, today: Date): Date {
    if date.Some? then date.value else today
  }

  /** `recordPayment`. */
  function RecordPayment(s: Store, user: UserId, id: Id, p: PaymentInput, today: Date): (r: Result<Store>)
    ensures id !in s.debts ==> r == Err(NotFound("Debt record not found"))
    ensures id in s.debts && s.debts[id].owner != user ==> r == Err(Unauthorized("Unauthorized access to debt record"))
    ensures id in s.debts && s.debts[id].owner == user && p.accountId.Some? ==>
      && (p.accountId.value !in s.accounts ==> r == Err(NotFound("Account not found")))
      && (p.accountId.value in s.accounts && s.accounts[p.accountId.value].owner != user ==> r == Err(Invalid("Invalid account")))
    ensures r.Ok? <==>
      && id in s.debts && s.debts[id].owner == user
      && (p.accountId.Some? ==> p.accountId.value in s.accounts && s.accounts[p.accountId.value].owner == user)
    ensures r.Ok? ==>
      var d := s.debts[id];
      && id in r.value.debts
      && r.value.debts == s.debts[id := d.(amount := d.amount - p.amount, emisPending := CountDown(d.emisPending))]
      && r.value.savings == s.savings && r.value.incomes == s.incomes && r.value.budgets == s.budgets
    ensures r.Ok? ==>
      var (s1, cat) := NamedCategory(s, user, RepaymentCategory, Some("EXPENSE"));
      var k := s1.nextId;
      && r.value.categories == s1.categories
      && r.value.nextId == k + 1
      && r.value.expenses == s.expenses[k := Expense(user, "Repayment: " + s.debts[id].name, "", p.amount,
                                                     Some(DateOr(p.date, today)), Some(cat), p.accountId, Some(id), None)]
    ensures r.Ok? ==> r.value.accounts == ApplyLinked(s.accounts, p.accountId, p.amount)
    ensures r.Ok? && Fresh(s) ==> Fresh(r.value) && s.nextId < r.value.nextId && r.value.nextId - 1 !in s.expenses
  {
    if id !in s.debts then Err(NotFound("Debt record not found"))
    else
      var d := s.debts[id];
      if d.owner != user then Err(Unauthorized("Unauthorized access to debt record"))
      else if p.accountId.Some? && p.accountId.value !in s.accounts then Err(NotFound("Account not found"))
      else if p.accountId.Some? && s.accounts[p.accountId.value].owner != user then Err(Invalid("Invalid account"))
      else
        var d' := d.(amount := d.amount - p.amount, emisPending := CountDown(d.emisPending));
        var (s1, cat) := NamedCategory(s, user, RepaymentCategory, Some("EXPENSE"));
        var e := Expense(user, "Repayment: " + d.name, "", p.amount, Some(DateOr(p.date, today)),
                         Some(cat), p.accountId, Some(id), None);
        Ok(s1.(debts := s1.debts[id := d'],
               expenses := s1.expenses[s1.nextId := e],
               accounts := ApplyLinked(s1.accounts, p.accountId, p.amount),
               nextId := s1.nextId + 1))
  }

  /** Why a payment update or delete is refused, in the order the handler
      checks: the debt, the payment, then that the payment is the caller's
      and filed under this debt (a payment with no debt link is dereferenced). */
  function PaymentError(s: Store, user: UserId, id: Id, paymentId: Id): (r: Option<Error>)
    ensures r.None? <==>
      id in s.debts && paymentId in s.expenses
      && s.expenses[paymentId].owner == user && s.expenses[paymentId].debt == Some(id)
  {
    if id !in s.debts then Some(NotFound("Debt record not found"))
    else if paymentId !in s.expenses then Some(NotFound("Payment record not found"))
    else
      var e := s.expenses[paymentId];
      if e.owner != user then Some(Invalid("Unauthorized or invalid payment record"))
      else if e.debt.None? then Some(NullReference)
      else if e.debt.value != id then Some(Invalid("Unauthorized or invalid payment record"))
      else None
  }

  /** `updatePayment`: the debt moves by the old amount minus the new, the
      payment takes the new amount and date, and its account (if any) moves
      by the difference.  The account link and the instalment count stay. */
  function UpdatePayment(s: Store, user: UserId, id: Id, paymentId: Id, p: PaymentInput, today: Date): (r: Result<Store>)
    ensures r.Err? <==> PaymentError(s, user, id, paymentId).Some?
    ensures r.Err? ==> r.error == PaymentError(s, user, id, paymentId).value
    ensures r.Ok? ==>
      var d := s.debts[id];
      var e := s.expenses[paymentId];
      && r.value.debts == s.debts[id := d.(amount := d.amount + e.amount - p.amount)]
      && r.value.expenses == s.expenses[paymentId := e.(amount := p.amount, date := Some(DateOr(p.date, today)))]
      && r.value.accounts == ApplyLinked(ReverseLinked(s.accounts, e.account, e.amount), e.account, p.amount)
      && r.value == s.(debts := r.value.debts, expenses := r.value.expenses, accounts := r.value.accounts)
  {
    match PaymentError(s, user, id, paymentId)
    case Some(err) => Err(err)
    case None =>
      var d := s.debts[id];
      var e := s.expenses[paymentId];
      var accounts :=
        if e.account.Some? && e.account.value in s.accounts then
          var a := s.accounts[e.account.value];
          Adjust(s.accounts, e.account.value, ExpenseDelta(a.kind, p.amount - e.amount))
        else s.accounts;
      assert e.account.Some? && e.account.value in s.accounts ==>
        var a := s.accounts[e.account.value];
        Adjust(s.accounts, e.account.value, ExpenseDelta(a.kind, p.amount - e.amount))
          == Adjust(Adjust(s.accounts, e.account.value, -ExpenseDelta(a.kind, e.amount)), e.account.value, ExpenseDelta(a.kind, p.amount));
      Ok(s.(debts := s.debts[id := d.(amount := d.amount + e.amount - p.amount)],
            expenses := s.expenses[paymentId := e.(amount := p.amount, date := Some(DateOr(p.date, today)))],
            accounts := accounts))
  }

  /** `deletePayment`: the payment's amount goes back on the debt and off its
      account, an instalment is counted back, and the payment is removed. */
  function DeletePayment(s: Store, user: UserId, id: Id, paymentId: Id): (r: Result<Store>)
    ensures r.Err? <==> PaymentError(s, user, id, paymentId).Some?
    ensures r.Err? ==> r.error == PaymentError(s, user, id, paymentId).value
    ensures r.Ok? ==>
      var d := s.debts[id];
      var e := s.expenses[paymentId];
      && r.value.debts == s.debts[id := d.(amount := d.amount + e.amount, emisPending := CountUp(d))]
      && r.value.expenses == s.expenses - {paymentId}
      && r.value.accounts == ReverseLinked(s.accounts, e.account, e.amount)
      && r.value == s.(debts := r.value.debts, expenses := r.value.expenses, accounts := r.value.accounts)
  {
    match PaymentError(s, user, id, paymentId)
    case Some(err) => Err(err)
    case None =>
      var d := s.debts[id];
      var e := s.expenses[paymentId];
      Ok(s.(debts := s.debts[id := d.(amount := d.amount + e.amount, emisPending := CountUp(d))],
            expenses := s.expenses - {paymentId},
            accounts := ReverseLinked(s.accounts, e.account, e.amount)))
  }

  /** Deleting the payment just recorded restores the debt's amount, every
      account and the expense table. */
  lemma RecordThenDeleteRestores(s: Store, user: UserId, id: Id, p: PaymentInput, today: Date)
    requires Fresh(s)
    requires RecordPayment(s, user, id, p, today).Ok?
    ensures var s' := RecordPayment(s, user, id, p, today).value;
            var r := DeletePayment(s', user, id, s'.nextId - 1);
            && r.Ok?
            && r.value.debts[id].amount == s.debts[id].amount
            && r.value.accounts == s.accounts
            && r.value.expenses == s.expenses
  {
    var s' := RecordPayment(s, user, id, p, today).value;
    var k := s'.nextId - 1;
    assert s'.expenses[k].debt == Some(id);
    assert s'.expenses - {k} == s.expenses;
    match p.accountId
    case None =>
    case Some(a) =>
      ReverseUndoesApply(s.accounts, a, p.amount);
  }

  /** Record then delete gives the instalment count back exactly when the
      count was unset, or when it was positive just as the total is set. */
  lemma RecordThenDeleteInstalments(s: Store, user: UserId, id: Id, p: PaymentInput, today: Date)
    requires Fresh(s)
    requires RecordPayment(s, user, id, p, today).Ok?
    requires s.debts[id].emisPending.Some? ==> IntMin <= s.debts[id].emisPending.value <= IntMax
    ensures var s' := RecordPayment(s, user, id, p, today).value;
            var d := s.debts[id];
            var r := DeletePayment(s', user, id, s'.nextId - 1);
            r.Ok? &&
            (r.value.debts[id].emisPending == d.emisPending <==>
               d.emisPending.None? || (d.emisPending.value > 0 <==> d.totalEmis.Some?))
  {
    var s' := RecordPayment(s, user, id, p, today).value;
    assert s'.expenses[s'.nextId - 1].debt == Some(id);
  }

  /** Updating a payment and then updating it back to its old amount restores
      the debt's amount and every account. */
  lemma UpdateBackRestores(s: Store, user: UserId, id: Id, paymentId: Id, p: PaymentInput, today: Date)
    requires UpdatePayment(s, user, id, paymentId, p, today).Ok?
    ensures var s1 := UpdatePayment(s, user, id, paymentId, p, today).value;
            var back := PaymentInput(s.expenses[paymentId].amount, p.date, p.accountId);
            var r := UpdatePayment(s1, user, id, paymentId, back, today);
            && r.Ok?
            && r.value.debts == s.debts
            && r.value.accounts == s.accounts
  {
    var e := s.expenses[paymentId];
    var s1 := UpdatePayment(s, user, id, paymentId, p, today).value;
    match e.account
    case None =>
    case Some(a) =>
      ReverseUndoesApply(s.accounts, a, e.amount);
      ReverseUndoesApply(Reverse(s.accounts, a, e.amount), a, p.amount);
  }
}

=== FILE: entities.dfy ===
/** The persisted records of the finance backend and the store that holds
    them.  Each repository is a map from id to record.  The backend's ids are
    random UUIDs; the model's ids are abstract creation ordinals, handed out
    by the store in increasing order, so a record created later has a larger
    id.  Nothing in the backend relates a UUID to creation order. */
module Entities {
  import opened Wrappers
  import opened Dates

  type Id = nat
  type UserId = nat

  /** `AccountEntity.AccountType`. */
  datatype AccountType = CreditCard | Savings

  datatype Account = Account(
    owner: UserId,
    name: string,
    kind: AccountType,
    balance: int,
    bankName: Option<string>,
    billingCycleStartDay: Option<int>,
    billDateDay: Option<int>,
    dueDateDay: Option<int>)

  /** A category node of the per-user forest.  `parent` and `children` are
      the two directions of the `parent` / `subCategories` association;
      `depth` is `allowedNestingDepth` (None = unlimited, 0 = no children);
      `kind` is the type string, null for the lazily created "Savings"
      category. */
  datatype Category = Category(
    owner: UserId,
    name: string,
    kind: Option<string>,
    parent: Option<Id>,
    children: seq<Id>,
    depth: Option<int>)

  /** An expense; `debt` and `saving` back-reference the record whose
      payment or contribution generated it. */
  datatype Expense = Expense(
    owner: UserId,
    name: string,
    description: string,
    amount: int,
    date: Option<Date>,
    category: Option<Id>,
    account: Option<Id>,
    debt: Option<Id>,
    saving: Option<Id>)

  /** An income; the entity has no account reference. */
  datatype Income = Income(
    owner: UserId,
    name: string,
    description: string,
    amount: int,
    date: Option<Date>,
    category: Option<Id>)

  /** A budget; `month` is the LocalDate sent by the client. */
  datatype Budget = Budget(owner: UserId, category: Id, amount: int, month: Date)

  datatype Debt = Debt(
    owner: UserId,
    name: string,
    amount: int,
    interest: int,
    totalEmis: Option<int>,
    emisPending: Option<int>)

  datatype Saving = Saving(
    owner: UserId,
    name: string,
    category: Option<string>,
    amount: int,
    target: Option<int>,
    date: Option<Date>)

  datatype Store = Store(
    accounts: map<Id, Account>,
    categories: map<Id, Category>,
    expenses: map<Id, Expense>,
    incomes: map<Id, Income>,
    budgets: map<Id, Budget>,
    debts: map<Id, Debt>,
    savings: map<Id, Saving>,
    nextId: Id)

  /** Every id in use lies below the allocator, so `nextId` is fresh. */
  predicate Fresh(s: Store) {
    && (forall k :: k in s.accounts ==> k < s.nextId)
    && (forall k :: k in s.categories ==> k < s.nextId)
    && (forall k :: k in s.expenses ==> k < s.nextId)
    && (forall k :: k in s.incomes ==> k < s.nextId)
    && (forall k :: k in s.budgets ==> k < s.nextId)
    && (forall k :: k in s.debts ==> k < s.nextId)
    && (forall k :: k in s.savings ==> k < s.nextId)
  }

  /** Java `int` range, for the Integer fields whose arithmetic can wrap. */
  const IntMin: int := -0x8000_0000
  const IntMax: int := 0x7fff_ffff

  /** Reduction of an integer to the Java `int` range (two's-complement wrap-around). */
  function WrapInt(x: int): (r: int)
    ensures IntMin <= r <= IntMax
    ensures IntMin <= x <= IntMax ==> r == x
  {
    (x - IntMin) % 0x1_0000_0000 + IntMin
  }
}

=== FILE: expenses.dfy ===
/** ExpenseController: the request mapping shared by create and update, the
    balance bookkeeping of create, update and delete, and the choice of
    repository query made by the expense listing. */
module Expenses {
  import opened Wrappers
  import opened Dates
  import opened Entities
  import opened Ledger
  import opened Forest

  /** Request body of `createExpense` and `updateExpense` (ExpenseDTO). */
  datatype ExpenseInput = ExpenseInput(
    name: string,
    description: string,
    amount: int,
    date: Option<Date>,
    categoryId: Option<Id>,
    accountId: Option<Id>)

  predicate OwnsCategory(s: Store, user: UserId, id: Id) {
    id in s.categories && s.categories[id].owner == user
  }

  predicate OwnsAccount(s: Store, user: UserId, id: Id) {
    id in s.accounts && s.accounts[id].owner == user
  }

  /** `mapDtoToEntity`: writes the request over the expense `e`.  A supplied
      category must exist and be the caller's (an absent one keeps `e`'s);
      the account is mandatory and must be the caller's. */
  function MapExpenseInput(s: Store, user: UserId, input: ExpenseInput, e: Expense): (r: Result<Expense>)
    ensures r.Ok? <==>
      && (input.categoryId.Some? ==> OwnsCategory(s, user, input.categoryId.value))
      && input.accountId.Some? && OwnsAccount(s, user, input.accountId.value)
    ensures input.categoryId.Some? && input.categoryId.value !in s.categories ==>
      r == Err(NotFound("Category not found"))
    ensures input.categoryId.Some? && input.categoryId.value in s.categories && !OwnsCategory(s, user, input.categoryId.value) ==>
      r == Err(Invalid("Invalid category"))
    ensures (input.categoryId.None? || OwnsCategory(s, user, input.categoryId.value)) && input.accountId.None? ==>
      r == Err(Invalid("Account is mandatory for expenses"))
    ensures (input.categoryId.None? || OwnsCategory(s, user, input.categoryId.value)) && input.accountId.Some? ==>
      && (input.accountId.value !in s.accounts ==> r == Err(NotFound("Account not found")))
      && (input.accountId.value in s.accounts && !OwnsAccount(s, user, input.accountId.value) ==> r == Err(Invalid("Invalid account")))
    ensures r.Ok? ==>
      && r.value.owner == e.owner && r.value.debt == e.debt && r.value.saving == e.saving
      && r.value.name == input.name && r.value.description == input.description
      && r.value.amount == input.amount && r.value.date == input.date
      && r.value.account == input.accountId
      && r.value.category == (if input.categoryId.Some? then input.categoryId else e.category)
  {
    if input.categoryId.Some? && input.categoryId.value !in s.categories then Err(NotFound("Category not found"))
    else if input.categoryId.Some? && s.categories[input.categoryId.value].owner != user then Err(Invalid("Invalid category"))
    else if input.accountId.None? then Err(Invalid("Account is mandatory for expenses"))
    else if input.accountId.value !in s.accounts then Err(NotFound("Account not found"))
    else if s.accounts[input.accountId.value].owner != user then Err(Invalid("Invalid account"))
    else
      var category := if input.categoryId.Some? then input.categoryId else e.category;
      Ok(e.(name := input.name, description := input.description, amount := input.amount,
            date := input.date, category := category, account := input.accountId))
  }

  /** The expense a create request builds: the caller's, with no debt or saving link. */
  function NewExpense(user: UserId): Expense {
    Expense(user, "", "", 0, None, None, None, None, None)
  }

  /** `createExpense`, all-or-nothing: the expense is stored under `nextId`
      and booked on its account.  A request without a category is refused
      by the mandatory category column before anything is written (see the
      findings in the README for what the handler does instead). */
  function CreateExpense(s: Store, user: UserId, input: ExpenseInput): (r: Result<Store>)
    ensures MapExpenseInput(s, user, input, NewExpense(user)).Err? ==>
      r == Err(MapExpenseInput(s, user, input, NewExpense(user)).error)
    ensures MapExpenseInput(s, user, input, NewExpense(user)).Ok? && input.categoryId.None? ==> r == Err(Rejected)
    ensures r.Ok? <==> MapExpenseInput(s, user, input, NewExpense(user)).Ok? && input.categoryId.Some?
    ensures r.Ok? ==>
      var a := input.accountId.value;
      && a in s.accounts && a in r.value.accounts
      && r.value.accounts[a].balance == s.accounts[a].balance + ExpenseDelta(s.accounts[a].kind, input.amount)
      && r.value.accounts.Keys == s.accounts.Keys
      && (forall k :: k in s.accounts && k != a ==> r.value.accounts[k] == s.accounts[k])
      && r.value.expenses == s.expenses[s.nextId := MapExpenseInput(s, user, input, NewExpense(user)).value]
      && r.value.nextId == s.nextId + 1
      && r.value == s.(accounts := r.value.accounts, expenses := r.value.expenses, nextId := r.value.nextId)
  {
    var e :- MapExpenseInput(s, user, input, NewExpense(user));
    if e.category.None? then Err(Rejected)
    else
      Ok(s.(expenses := s.expenses[s.nextId := e],
            accounts := Apply(s.accounts, e.account.value, e.amount),
            nextId := s.nextId + 1))
  }

  /** `createExpense` as the handler runs it, without a transaction: the
      account is saved before the expense, so when the expense row is then
      refused for its missing category the balance change stays.  The
      result is the state left behind and the error raised, if any. */
  function CreateExpenseAsWritten(s: Store, user: UserId, input: ExpenseInput): (r: (Store, Option<Error>))
    ensures MapExpenseInput(s, user, input, NewExpense(user)).Err? ==> r.0 == s && r.1.Some?
    ensures input.categoryId.Some? ==>
      match CreateExpense(s, user, input)
      case Ok(s') => r == (s', None)
      case Err(e) => r == (s, Some(e))
  {
    match MapExpenseInput(s, user, input, NewExpense(user))
    case Err(e) => (s, Some(e))
    case Ok(e) =>
      var booked := s.(accounts := Apply(s.accounts, e.account.value, e.amount));
      if e.category.None? then (booked, Some(Rejected))
      else (booked.(expenses := s.expenses[s.nextId := e], nextId := s.nextId + 1), None)
  }

  /** A create without a category fails, yet the account balance has moved
      and no expense accounts for the move. */
  lemma CreateWithoutCategoryMovesBalance(s: Store, user: UserId, input: ExpenseInput)
    requires input.categoryId.None? && input.accountId.Some? && OwnsAccount(s, user, input.accountId.value)
    requires input.amount != 0
    ensures var (s', err) := CreateExpenseAsWritten(s, user, input);
            var a := input.accountId.value;
            && err == Some(Rejected)
            && CreateExpense(s, user, input) == Err(Rejected)
            && s'.expenses == s.expenses
            && a in s'.accounts && s'.accounts[a].balance != s.accounts[a].balance
  {
  }

  /** Balance change of a same-account update, as the handler writes it:
      a credit card loses the old amount and gains the new one, a savings
      account gains the old amount and loses the new one. */
  function SameAccountDelta(kind: AccountType, oldAmount: int, newAmount: int): int {
    match kind
    case CreditCard => -oldAmount + newAmount
    case Savings => oldAmount - newAmount
  }

  /** The three branches of `updateExpense`'s balance adjustment. */
  function UpdateBalances(accounts: map<Id, Account>, oldAccount: Option<Id>, oldAmount: int,
                          newAccount: Id, newAmount: int): map<Id, Account>
  {
    if oldAccount.None? then Apply(accounts, newAccount, newAmount)
    else if oldAccount.value == newAccount then
      (if newAccount in accounts
       then Adjust(accounts, newAccount, SameAccountDelta(accounts[newAccount].kind, oldAmount, newAmount))
       else accounts)
    else Apply(Reverse(accounts, oldAccount.value, oldAmount), newAccount, newAmount)
  }

  /** In every branch the adjustment is "undo the old booking, then book the new one". */
  lemma UpdateIsReverseThenApply(accounts: map<Id, Account>, oldAccount: Option<Id>, oldAmount: int,
                                 newAccount: Id, newAmount: int)
    ensures UpdateBalances(accounts, oldAccount, oldAmount, newAccount, newAmount)
            == Apply(ReverseLinked(accounts, oldAccount, oldAmount), newAccount, newAmount)
  {
    if oldAccount.Some? && oldAccount.value == newAccount && newAccount in accounts {
      var a := accounts[newAccount];
      var d := SameAccountDelta(a.kind, oldAmount, newAmount);
      assert d == -ExpenseDelta(a.kind, oldAmount) + ExpenseDelta(a.kind, newAmount);
      assert Adjust(accounts, newAccount, d)
          == Adjust(Adjust(accounts, newAccount, -ExpenseDelta(a.kind, oldAmount)), newAccount, ExpenseDelta(a.kind, newAmount));
    }
  }

  /** `updateExpense`: the expense must exist and be the caller's; the request
      is mapped over it and the balances are adjusted for the change. */
  function UpdateExpense(s: Store, user: UserId, id: Id, input: ExpenseInput): (r: Result<Store>)
    ensures id !in s.expenses ==> r == Err(NotFound("Expense not found"))
    ensures id in s.expenses && s.expenses[id].owner != user ==> r == Err(Unauthorized("Unauthorized"))
    ensures id in s.expenses && s.expenses[id].owner == user ==>
      var mapped := MapExpenseInput(s, user, input, s.expenses[id]);
      && (r.Ok? <==> mapped.Ok?)
      && (mapped.Err? ==> r == Err(mapped.error))
      && (r.Ok? ==>
            var old_ := s.expenses[id];
            && r.value.expenses == s.expenses[id := mapped.value]
            && r.value.accounts == Apply(ReverseLinked(s.accounts, old_.account, old_.amount), input.accountId.value, input.amount)
            && r.value == s.(accounts := r.value.accounts, expenses := r.value.expenses))
  {
    if id !in s.expenses then Err(NotFound("Expense not found"))
    else
      var e := s.expenses[id];
      if e.owner != user then Err(Unauthorized("Unauthorized"))
      else
        var e' :- MapExpenseInput(s, user, input, e);
        UpdateIsReverseThenApply(s.accounts, e.account, e.amount, e'.account.value, e'.amount);
        Ok(s.(expenses := s.expenses[id := e'],
              accounts := UpdateBalances(s.accounts, e.account, e.amount, e'.account.value, e'.amount)))
  }

  /** A same-account update moves a credit card by `new - old` and a savings
      account by `old - new`; with the amount unchanged the balance stays. */
  lemma UpdateSameAccount(s: Store, user: UserId, id: Id, input: ExpenseInput)
    requires id in s.expenses && input.accountId.Some? && s.expenses[id].account == input.accountId
    requires UpdateExpense(s, user, id, input).Ok?
    ensures var a := input.accountId.value;
            var old_ := s.expenses[id];
            var s' := UpdateExpense(s, user, id, input).value;
            && a in s.accounts && a in s'.accounts
            && s'.accounts[a].balance == s.accounts[a].balance + SameAccountDelta(s.accounts[a].kind, old_.amount, input.amount)
            && (input.amount == old_.amount ==> s'.accounts == s.accounts)
  {
  }

  /** Moving an expense between two accounts of the same type, amount
      unchanged, keeps the sum of their balances. */
  lemma MoveKeepsPairSum(s: Store, user: UserId, id: Id, input: ExpenseInput)
    requires id in s.expenses
    requires UpdateExpense(s, user, id, input).Ok?
    requires s.expenses[id].account.Some? && s.expenses[id].account.value in s.accounts
    requires Some(s.expenses[id].account.value) != input.accountId
    requires input.amount == s.expenses[id].amount
    requires s.accounts[s.expenses[id].account.value].kind == s.accounts[input.accountId.value].kind
    ensures var a := s.expenses[id].account.value;
            var b := input.accountId.value;
            var s' := UpdateExpense(s, user, id, input).value;
            a in s'.accounts && b in s'.accounts &&
            s'.accounts[a].balance + s'.accounts[b].balance == s.accounts[a].balance + s.accounts[b].balance
  {
  }

  /** `deleteExpense`: the expense must exist and be the caller's; its booking
      is undone on its account, if it has one, and the row removed. */
  function DeleteExpense(s: Store, user: UserId, id: Id): (r: Result<Store>)
    ensures id !in s.expenses ==> r == Err(NotFound("Expense not found"))
    ensures id in s.expenses && s.expenses[id].owner != user ==> r == Err(Unauthorized("Unauthorized"))
    ensures r.Ok? <==> id in s.expenses && s.expenses[id].owner == user
    ensures r.Ok? ==>
      var e := s.expenses[id];
      && r.value.expenses == s.expenses - {id}
      && r.value.accounts.Keys == s.accounts.Keys
      && (e.account.None? ==> r.value.accounts == s.accounts)
      && (forall k :: k in s.accounts && Some(k) != e.account ==> r.value.accounts[k] == s.accounts[k])
      && (e.account.Some? && e.account.value in s.accounts ==>
            var a := e.account.value;
            r.value.accounts[a].balance == s.accounts[a].balance - ExpenseDelta(s.accounts[a].kind, e.amount))
      && r.value == s.(accounts := r.value.accounts, expenses := r.value.expenses)
  {
    if id !in s.expenses then Err(NotFound("Expense not found"))
    else
      var e := s.expenses[id];
      if e.owner != user then Err(Unauthorized("Unauthorized"))
      else Ok(s.(accounts := ReverseLinked(s.accounts, e.account, e.amount), expenses := s.expenses - {id}))
  }

  /** Deleting a freshly created expense restores every account and the
      expense table; only the id allocator has moved on. */
  lemma CreateThenDeleteRestores(s: Store, user: UserId, input: ExpenseInput)
    requires Fresh(s)
    requires CreateExpense(s, user, input).Ok?
    ensures DeleteExpense(CreateExpense(s, user, input).value, user, s.nextId) == Ok(s.(nextId := s.nextId + 1))
  {
    var s' := CreateExpense(s, user, input).value;
    var a := input.accountId.value;
    ReverseUndoesApply(s.accounts, a, input.amount);
    assert s'.expenses - {s.nextId} == s.expenses;
  }

  /** The listing parameters: month and year, explicit dates, a category, an
      account and a search text, each optional. */
  datatype ExpenseFilter = ExpenseFilter(
    month: Option<int>,
    year: Option<int>,
    fromDate: Option<Date>,
    toDate: Option<Date>,
    categoryId: Option<Id>,
    accountId: Option<Id>,
    search: Option<string>)

  /** The repository query the listing runs. */
  datatype ExpenseQuery =
    | Between(start: Date, end: Date)            // the user's expenses dated in [start, end], newest first
    | Filtered(from: Option<Date>, to: Option<Date>, categoryIds: Option<set<Id>>,
               accountId: Option<Id>, search: Option<string>)
    | AllOfUser

  /** The category ids a category filter matches: the category and, when it
      exists, every category below it. */
  function CategoryScope(a: map<Id, Category>, c: Id): (r: set<Id>)
    requires ChildLinksOrdered(a)
    ensures c in r
  {
    if c in a then set k | k in Preorder(a, c) else {c}
  }

  /** The scope is the category and exactly its descendants. */
  lemma CategoryScopeSpec(a: map<Id, Category>, c: Id)
    requires WellFormed(a)
    ensures forall k :: k in CategoryScope(a, c) <==> k == c || (k in a && Reaches(a, k, c))
  {
    if c in a {
      CollectHierarchySpec(a, c);
      forall k ensures k in CategoryScope(a, c) <==> k in Preorder(a, c) {
      }
    } else {
      forall k | k in a && Reaches(a, k, c) ensures false {
        ReachesInside(a, k, c);
      }
    }
  }

  predicate UsesMonth(f: ExpenseFilter) {
    f.fromDate.None? && f.toDate.None? && f.month.Some? && f.year.Some?
  }

  /** The date bounds of the listing: the explicit ones, or the month window
      when neither is given and both month and year are. */
  function DateBounds(f: ExpenseFilter): (r: Result<(Option<Date>, Option<Date>)>)
    ensures !UsesMonth(f) ==> r == Ok((f.fromDate, f.toDate))
    ensures UsesMonth(f) ==>
      match MonthWindow(f.year.value, f.month.value)
      case Ok((first, last)) => r == Ok((Some(first), Some(last)))
      case Err(e) => r == Err(e)
  {
    if UsesMonth(f) then
      var (first, last) :- MonthWindow(f.year.value, f.month.value);
      Ok((Some(first), Some(last)))
    else Ok((f.fromDate, f.toDate))
  }

  /** `getExpenses` / `getFilteredExpenses`: the plain date query when only a
      full date range is asked for, the general filter when anything else is
      given, every expense of the user when nothing is. */
  function ChooseExpenseQuery(a: map<Id, Category>, f: ExpenseFilter): (r: Result<ExpenseQuery>)
    requires ChildLinksOrdered(a)
    ensures r.Err? <==> UsesMonth(f) && MonthWindow(f.year.value, f.month.value).Err?
    ensures r.Ok? && r.value.Between? <==>
      && r.Ok? && f.categoryId.None? && f.accountId.None? && f.search.None?
      && (UsesMonth(f) || (f.fromDate.Some? && f.toDate.Some?))
    ensures r.Ok? && r.value.Between? && !UsesMonth(f) ==> r.value == Between(f.fromDate.value, f.toDate.value)
    ensures r.Ok? && r.value.Between? && UsesMonth(f) ==>
      r.value == Between(Date(f.year.value, f.month.value, 1),
                         Date(f.year.value, f.month.value, DaysInMonth(f.year.value, f.month.value)))
    ensures r == Ok(AllOfUser) <==>
      && !UsesMonth(f) && f.fromDate.None? && f.toDate.None?
      && f.categoryId.None? && f.accountId.None? && f.search.None?
    ensures r.Ok? && r.value.Filtered? ==>
      && r.value.accountId == f.accountId && r.value.search == f.search
      && r.value.categoryIds == (if f.categoryId.Some? then Some(CategoryScope(a, f.categoryId.value)) else None)
      && (!UsesMonth(f) ==> r.value.from == f.fromDate && r.value.to == f.toDate)
      && DateBounds(f) == Ok((r.value.from, r.value.to))
    ensures r.Ok? && r.value.Filtered? && UsesMonth(f) ==>
      && r.value.from == Some(Date(f.year.value, f.month.value, 1))
      && r.value.to == Some(Date(f.year.value, f.month.value, DaysInMonth(f.year.value, f.month.value)))
  {
    var (start, end) :- DateBounds(f);
    var ids := if f.categoryId.Some? then Some(CategoryScope(a, f.categoryId.value)) else None;
    if ids.None? && f.accountId.None? && f.search.None? && start.Some? && end.Some? then
      Ok(Between(start.value, end.value))
    else if start.Some? || end.Some? || ids.Some? || f.accountId.Some? || f.search.Some? then
      Ok(Filtered(start, end, ids, f.accountId, f.search))
    else
      Ok(AllOfUser)
  }
}

=== FILE: forest.dfy ===
/** The category forest as an arena: nodes keyed by id, each with a parent
    id and an ordered list of child ids (`CategoryEntity.subCategories`).

    A child is only ever created under a parent that already exists, so a
    child's id is larger than its parent's.  That order is what makes the
    recursive walks terminate, and it rules out cycles. */
module Forest {
  import opened Wrappers
  import opened Entities

  predicate NoDup<T(==)>(s: seq<T>) {
    forall i, j :: 0 <= i < j < |s| ==> s[i] != s[j]
  }

  /** Every child link points at an existing node created after its parent. */
  predicate ChildLinksOrdered(a: map<Id, Category>) {
    forall n, i :: n in a && 0 <= i < |a[n].children| ==> a[n].children[i] in a && n < a[n].children[i]
  }

  /** Each child's parent link points back at the node that lists it. */
  predicate ChildLinksBack(a: map<Id, Category>)
    requires ChildLinksOrdered(a)
  {
    forall n, i :: n in a && 0 <= i < |a[n].children| ==> a[a[n].children[i]].parent == Some(n)
  }

  /** Each parent link points at an existing node that lists the child. */
  predicate ParentLinksBack(a: map<Id, Category>) {
    forall c :: c in a && a[c].parent.Some? ==> a[c].parent.value in a && c in a[a[c].parent.value].children
  }

  predicate ChildrenDistinct(a: map<Id, Category>) {
    forall n :: n in a ==> NoDup(a[n].children)
  }

  /** The two directions of the parent/child association agree, and no child
      is listed twice. */
  predicate WellFormed(a: map<Id, Category>) {
    && ChildLinksOrdered(a)
    && ChildLinksBack(a)
    && ParentLinksBack(a)
    && ChildrenDistinct(a)
  }

  /** Following parent links from `x` reaches `c`: `x` is `c` or one of its descendants. */
  predicate Reaches(a: map<Id, Category>, x: Id, c: Id)
    decreases x
  {
    x == c
    || (x in a && a[x].parent.Some? && a[x].parent.value < x && Reaches(a, a[x].parent.value, c))
  }

  function Above(a: map<Id, Category>, id: Id): set<Id> {
    set k | k in a && k >= id
  }

  lemma AboveShrinks(a: map<Id, Category>, p: Id, c: Id)
    requires p in a && p < c
    ensures Above(a, c) < Above(a, p)
  {
    assert p in Above(a, p) && p !in Above(a, c);
  }

  /** `collectHierarchy`: the node followed by the subtrees of its children,
      in child order (preorder). */
  function Preorder(a: map<Id, Category>, id: Id): (r: seq<Id>)
    requires ChildLinksOrdered(a) && id in a
    ensures |r| > 0 && r[0] == id
    ensures forall k :: k in r ==> k in a && id <= k
    decreases Above(a, id), 1, 0
  {
    [id] + PreorderAll(a, a[id].children, id)
  }

  /** The preorders of the nodes `cs`, children of `p`, one after another. */
  function PreorderAll(a: map<Id, Category>, cs: seq<Id>, p: Id): (r: seq<Id>)
    requires ChildLinksOrdered(a) && p in a
    requires forall i :: 0 <= i < |cs| ==> cs[i] in a && p < cs[i]
    ensures forall k :: k in r ==> k in a && p < k
    decreases Above(a, p), 0, |cs|
  {
    if cs == [] then []
    else
      AboveShrinks(a, p, cs[0]);
      Preorder(a, cs[0]) + PreorderAll(a, cs[1..], p)
  }

  lemma {:induction false} ReachesLe(a: map<Id, Category>, x: Id, c: Id)
    requires Reaches(a, x, c)
    ensures c <= x
    decreases x
  {
    if x != c {
      ReachesLe(a, a[x].parent.value, c);
    }
  }

  lemma {:induction false} ReachesTrans(a: map<Id, Category>, x: Id, y: Id, z: Id)
    requires Reaches(a, x, y) && Reaches(a, y, z)
    ensures Reaches(a, x, z)
    decreases x
  {
    if x != y {
      ReachesTrans(a, a[x].parent.value, y, z);
    }
  }

  /** The ancestors of a node are nodes of the arena. */
  lemma {:induction false} ReachesInside(a: map<Id, Category>, x: Id, c: Id)
    requires ParentLinksBack(a) && x in a && Reaches(a, x, c)
    ensures c in a
    decreases x
  {
    if x != c {
      ReachesInside(a, a[x].parent.value, c);
    }
  }

  /** The ancestors of a node form a chain. */
  lemma {:induction false} ReachesChain(a: map<Id, Category>, x: Id, c1: Id, c2: Id)
    requires Reaches(a, x, c1) && Reaches(a, x, c2)
    ensures Reaches(a, c1, c2) || Reaches(a, c2, c1)
    decreases x
  {
    if x != c1 && x != c2 {
      ReachesChain(a, a[x].parent.value, c1, c2);
    }
  }

  /** Distinct children of one parent have disjoint subtrees. */
  lemma SiblingsDisjoint(a: map<Id, Category>, x: Id, c1: Id, c2: Id, p: Id)
    requires c1 in a && c2 in a && c1 != c2
    requires a[c1].parent == Some(p) && a[c2].parent == Some(p) && p < c1 && p < c2
    requires Reaches(a, x, c1)
    ensures !Reaches(a, x, c2)
  {
    if Reaches(a, x, c2) {
      ReachesChain(a, x, c1, c2);
      if Reaches(a, c1, c2) {
        ReachesLe(a, p, c2);
      } else {
        ReachesLe(a, p, c1);
      }
    }
  }

  /** An element of the concatenated preorders lies in one of them. */
  lemma {:induction false} InPreorderAll(a: map<Id, Category>, cs: seq<Id>, p: Id, y: Id)
    requires ChildLinksOrdered(a) && p in a
    requires forall i :: 0 <= i < |cs| ==> cs[i] in a && p < cs[i]
    ensures y in PreorderAll(a, cs, p) <==> exists i :: 0 <= i < |cs| && y in Preorder(a, cs[i])
    decreases |cs|
  {
    if cs != [] {
      InPreorderAll(a, cs[1..], p, y);
      if y in PreorderAll(a, cs[1..], p) {
        var i :| 0 <= i < |cs[1..]| && y in Preorder(a, cs[1..][i]);
        assert y in Preorder(a, cs[i + 1]);
      }
      if exists i :: 0 <= i < |cs| && y in Preorder(a, cs[i]) {
        var i :| 0 <= i < |cs| && y in Preorder(a, cs[i]);
        if i > 0 {
          assert y in Preorder(a, cs[1..][i - 1]);
        }
      }
    }
  }

  /** Everything the walk collects is the node itself or one of its descendants. */
  lemma {:induction false} PreorderSound(a: map<Id, Category>, c: Id, y: Id)
    requires WellFormed(a) && c in a
    requires y in Preorder(a, c)
    ensures y in a && Reaches(a, y, c)
    decreases Above(a, c)
  {
    if y != c {
      var cs := a[c].children;
      InPreorderAll(a, cs, c, y);
      var i :| 0 <= i < |cs| && y in Preorder(a, cs[i]);
      AboveShrinks(a, c, cs[i]);
      PreorderSound(a, cs[i], y);
      assert Reaches(a, cs[i], c);
      ReachesTrans(a, y, cs[i], c);
    }
  }

  /** A child of a collected node is collected too. */
  lemma {:induction false} PreorderClosed(a: map<Id, Category>, c: Id, q: Id, y: Id)
    requires WellFormed(a) && c in a
    requires q in Preorder(a, c) && q in a && y in a[q].children
    ensures y in Preorder(a, c)
    decreases Above(a, c)
  {
    var cs := a[c].children;
    if q == c {
      var i :| 0 <= i < |cs| && cs[i] == y;
      InPreorderAll(a, cs, c, y);
    } else {
      InPreorderAll(a, cs, c, q);
      var i :| 0 <= i < |cs| && q in Preorder(a, cs[i]);
      AboveShrinks(a, c, cs[i]);
      PreorderClosed(a, cs[i], q, y);
      InPreorderAll(a, cs, c, y);
    }
  }

  /** Every descendant of the node is collected. */
  lemma {:induction false} PreorderComplete(a: map<Id, Category>, c: Id, y: Id)
    requires WellFormed(a) && c in a
    requires y in a && Reaches(a, y, c)
    ensures y in Preorder(a, c)
    decreases y
  {
    if y != c {
      var q := a[y].parent.value;
      PreorderComplete(a, c, q);
      PreorderClosed(a, c, q, y);
    }
  }

  lemma NoDupConcat<T>(s: seq<T>, t: seq<T>)
    requires NoDup(s) && NoDup(t)
    requires forall x :: x in s ==> x !in t
    ensures NoDup(s + t)
  {
    forall i, j | 0 <= i < j < |s + t|
      ensures (s + t)[i] != (s + t)[j]
    {
      if i < |s| && j >= |s| {
        assert (s + t)[i] in s && (s + t)[j] in t;
      }
    }
  }

  /** The walk collects each node at most once. */
  lemma {:induction false} PreorderNoDup(a: map<Id, Category>, c: Id)
    requires WellFormed(a) && c in a
    ensures NoDup(Preorder(a, c))
    decreases Above(a, c), 1, 0
  {
    var cs := a[c].children;
    PreorderAllNoDup(a, cs, c);
    forall y | y in PreorderAll(a, cs, c)
      ensures y != c
    {
      InPreorderAll(a, cs, c, y);
      var i :| 0 <= i < |cs| && y in Preorder(a, cs[i]);
      PreorderSound(a, cs[i], y);
      ReachesLe(a, y, cs[i]);
    }
    NoDupConcat([c], PreorderAll(a, cs, c));
  }

  lemma {:induction false} PreorderAllNoDup(a: map<Id, Category>, cs: seq<Id>, p: Id)
    requires WellFormed(a) && p in a
    requires forall i :: 0 <= i < |cs| ==> cs[i] in a && p < cs[i] && a[cs[i]].parent == Some(p)
    requires NoDup(cs)
    ensures NoDup(PreorderAll(a, cs, p))
    decreases Above(a, p), 0, |cs|
  {
    if cs != [] {
      AboveShrinks(a, p, cs[0]);
      PreorderNoDup(a, cs[0]);
      assert NoDup(cs[1..]) by {
        forall i, j | 0 <= i < j < |cs[1..]| ensures cs[1..][i] != cs[1..][j] {
          assert cs[1..][i] == cs[i + 1] && cs[1..][j] == cs[j + 1];
        }
      }
      PreorderAllNoDup(a, cs[1..], p);
      forall y | y in Preorder(a, cs[0])
        ensures y !in PreorderAll(a, cs[1..], p)
      {
        PreorderSound(a, cs[0], y);
        InPreorderAll(a, cs[1..], p, y);
        if y in PreorderAll(a, cs[1..], p) {
          var j :| 0 <= j < |cs[1..]| && y in Preorder(a, cs[1..][j]);
          assert cs[1..][j] == cs[j + 1] && cs[0] != cs[j + 1];
          PreorderSound(a, cs[j + 1], y);
          SiblingsDisjoint(a, y, cs[0], cs[j + 1], p);
        }
      }
      NoDupConcat(Preorder(a, cs[0]), PreorderAll(a, cs[1..], p));
    }
  }

  /** `collectHierarchy` yields the node first, then exactly its descendants,
      each of them once. */
  lemma CollectHierarchySpec(a: map<Id, Category>, c: Id)
    requires WellFormed(a) && c in a
    ensures Preorder(a, c)[0] == c
    ensures NoDup(Preorder(a, c))
    ensures forall y :: y in Preorder(a, c) <==> y in a && Reaches(a, y, c)
  {
    PreorderNoDup(a, c);
    forall y
      ensures y in Preorder(a, c) <==> y in a && Reaches(a, y, c)
    {
      if y in Preorder(a, c) {
        PreorderSound(a, c, y);
      }
      if y in a && Reaches(a, y, c) {
        PreorderComplete(a, c, y);
      }
    }
  }
}

=== FILE: incomes.dfy ===
/** IncomeController: the request mapping with its category rule, create,
    update and delete (none of which touches an account), and the month
    window of the listing. */
module Incomes {
  import opened Wrappers
  import opened Dates
  import opened Entities

  /** Request body of `createIncome` and `updateIncome` (IncomeDTO). */
  datatype IncomeInput = IncomeInput(
    name: string,
    description: string,
    amount: int,
    date: Option<Date>,
    categoryId: Option<Id>)

  /** A category an income may be filed under: the caller's, of type exactly "INCOME". */
  predicate IncomeCategory(s: Store, user: UserId, id: Id) {
    id in s.categories && s.categories[id].owner == user && s.categories[id].kind == Some("INCOME")
  }

  /** `populateEntityFromDTO`: writes the request over the income `i`; a
      supplied category must exist, be the caller's and have type INCOME, and
      an absent one keeps `i`'s. */
  function MapIncomeInput(s: Store, user: UserId, input: IncomeInput, i: Income): (r: Result<Income>)
    ensures r.Ok? <==> input.categoryId.None? || IncomeCategory(s, user, input.categoryId.value)
    ensures input.categoryId.Some? ==>
      var c := input.categoryId.value;
      && (c !in s.categories ==> r == Err(NotFound("Category not found")))
      && (c in s.categories && s.categories[c].owner != user ==> r == Err(Invalid("Invalid category")))
      && (c in s.categories && s.categories[c].owner == user && s.categories[c].kind != Some("INCOME") ==>
            r == Err(Invalid("Category must be of type INCOME")))
    ensures r.Ok? ==>
      && r.value.owner == i.owner
      && r.value.name == input.name && r.value.description == input.description
      && r.value.amount == input.amount && r.value.date == input.date
      && r.value.category == (if input.categoryId.Some? then input.categoryId else i.category)
  {
    if input.categoryId.None? then
      Ok(i.(name := input.name, description := input.description, amount := input.amount, date := input.date))
    else
      var c := input.categoryId.value;
      if c !in s.categories then Err(NotFound("Category not found"))
      else if s.categories[c].owner != user then Err(Invalid("Invalid category"))
      else if s.categories[c].kind != Some("INCOME") then Err(Invalid("Category must be of type INCOME"))
      else Ok(i.(name := input.name, description := input.description, amount := input.amount,
                 date := input.date, category := input.categoryId))
  }

  /** The income table refuses a row without a category or a date. */
  function Persistable(i: Income): (r: Result<Income>)
    ensures r.Ok? <==> i.category.Some? && i.date.Some?
    ensures r.Ok? ==> r.value == i
    ensures r.Err? ==> r.error == Rejected
  {
    if i.category.None? || i.date.None? then Err(Rejected) else Ok(i)
  }

  /** `createIncome`. */
  function CreateIncome(s: Store, user: UserId, input: IncomeInput): (r: Result<Store>)
    ensures r.Ok? <==>
      && (input.categoryId.None? || IncomeCategory(s, user, input.categoryId.value))
      && input.categoryId.Some? && input.date.Some?
    ensures r.Ok? ==>
      && r.value.incomes == s.incomes[s.nextId := Income(user, input.name, input.description, input.amount,
                                                        input.date, input.categoryId)]
      && r.value == s.(incomes := r.value.incomes, nextId := s.nextId + 1)
    ensures r.Ok? && Fresh(s) ==> Fresh(r.value) && s.nextId !in s.incomes
  {
    var i :- MapIncomeInput(s, user, input, Income(user, "", "", 0, None, None));
    var i :- Persistable(i);
    Ok(s.(incomes := s.incomes[s.nextId := i], nextId := s.nextId + 1))
  }

  /** `updateIncome`: the income must exist and be the caller's. */
  function UpdateIncome(s: Store, user: UserId, id: Id, input: IncomeInput): (r: Result<Store>)
    ensures id !in s.incomes ==> r == Err(NotFound("Income not found"))
    ensures id in s.incomes && s.incomes[id].owner != user ==> r == Err(Unauthorized("Unauthorized to update this income"))
    ensures r.Ok? ==>
      && id in s.incomes && s.incomes[id].owner == user
      && id in r.value.incomes
      && r.value.incomes == s.incomes[id := r.value.incomes[id]]
      && MapIncomeInput(s, user, input, s.incomes[id]) == Ok(r.value.incomes[id])
      && r.value == s.(incomes := r.value.incomes)
    ensures r.Ok? && input.categoryId.None? ==> r.value.incomes[id].category == s.incomes[id].category
    ensures input.date.None? ==> r.Err?
    ensures r.Ok? <==>
      && id in s.incomes && s.incomes[id].owner == user
      && (input.categoryId.None? || IncomeCategory(s, user, input.categoryId.value))
      && (input.categoryId.Some? || s.incomes[id].category.Some?)
      && input.date.Some?
    ensures id in s.incomes && s.incomes[id].owner == user ==>
      var m := MapIncomeInput(s, user, input, s.incomes[id]);
      && (m.Err? ==> r == Err(m.error))
      && (m.Ok? && (m.value.category.None? || m.value.date.None?) ==> r == Err(Rejected))
  {
    if id !in s.incomes then Err(NotFound("Income not found"))
    else
      var i := s.incomes[id];
      if i.owner != user then Err(Unauthorized("Unauthorized to update this income"))
      else
        var i' :- MapIncomeInput(s, user, input, i);
        var i' :- Persistable(i');
        Ok(s.(incomes := s.incomes[id := i']))
  }

  /** `deleteIncome`. */
  function DeleteIncome(s: Store, user: UserId, id: Id): (r: Result<Store>)
    ensures id !in s.incomes ==> r == Err(NotFound("Income not found"))
    ensures id in s.incomes && s.incomes[id].owner != user ==> r == Err(Unauthorized("Unauthorized to delete this income"))
    ensures r.Ok? <==> id in s.incomes && s.incomes[id].owner == user
    ensures r.Ok? ==> r.value == s.(incomes := s.incomes - {id})
  {
    if id !in s.incomes then Err(NotFound("Income not found"))
    else if s.incomes[id].owner != user then Err(Unauthorized("Unauthorized to delete this income"))
    else Ok(s.(incomes := s.incomes - {id}))
  }

  /** Deleting the income just created gives back the income table. */
  lemma CreateThenDeleteIncome(s: Store, user: UserId, input: IncomeInput)
    requires Fresh(s) && CreateIncome(s, user, input).Ok?
    ensures DeleteIncome(CreateIncome(s, user, input).value, user, s.nextId) == Ok(s.(nextId := s.nextId + 1))
  {
    assert s.incomes[s.nextId := CreateIncome(s, user, input).value.incomes[s.nextId]] - {s.nextId} == s.incomes;
  }

  /** Which repository query `getIncomes` runs: the month's dates when both
      month and year are given, otherwise all of the user's incomes. */
  function IncomeWindow(month: Option<int>, year: Option<int>): (r: Result<Option<(Date, Date)>>)
    ensures month.None? || year.None? ==> r == Ok(None)
    ensures month.Some? && year.Some? ==>
      match MonthWindow(year.value, month.value)
      case Ok(w) => r == Ok(Some(w))
      case Err(e) => r == Err(e)
  {
    if month.Some? && year.Some? then
      var w :- MonthWindow(year.value, month.value);
      Ok(Some(w))
    else Ok(None)
  }

  /** The month window holds exactly the dates of that month. */
  lemma IncomeWindowIsMonth(month: int, year: int, d: Date)
    requires IncomeWindow(Some(month), Some(year)).Ok? && ValidDate(d)
    ensures var (first, last) := IncomeWindow(Some(month), Some(year)).value.value;
            DateLe(first, d) && DateLe(d, last) <==> d.year == year && d.month == month
  {
    MonthWindowCoversMonth(year, month, d);
  }
}

=== FILE: ledger.dfy ===
/** The balance convention shared by every handler that touches an account,
    and the sums the recompute and the billing cycle are built from.

    Spending through a credit card raises its balance (the amount owed);
    spending from a savings account lowers it.  Reversing an expense applies
    the negated delta. */
module Ledger {
  import opened Wrappers
  import opened Dates
  import opened Entities

  /** Balance delta of an expense of `amount` on an account of type `kind`. */
  function ExpenseDelta(kind: AccountType, amount: int): int {
    match kind
    case CreditCard => amount
    case Savings => -amount
  }

  /** Adds `delta` to the balance of account `id`.  The handlers only write
      balances of accounts they have loaded, so an id that is not in the map
      leaves it unchanged. */
  function Adjust(accounts: map<Id, Account>, id: Id, delta: int): (r: map<Id, Account>)
    ensures r.Keys == accounts.Keys
    ensures forall k :: k in accounts && k != id ==> r[k] == accounts[k]
    ensures id in accounts ==> r[id] == accounts[id].(balance := accounts[id].balance + delta)
  {
    if id in accounts then accounts[id := accounts[id].(balance := accounts[id].balance + delta)]
    else accounts
  }

  /** Books an expense of `amount` on account `id`. */
  function Apply(accounts: map<Id, Account>, id: Id, amount: int): map<Id, Account> {
    if id in accounts then Adjust(accounts, id, ExpenseDelta(accounts[id].kind, amount))
    else accounts
  }

  /** Undoes an expense of `amount` on account `id`. */
  function Reverse(accounts: map<Id, Account>, id: Id, amount: int): map<Id, Account> {
    if id in accounts then Adjust(accounts, id, -ExpenseDelta(accounts[id].kind, amount))
    else accounts
  }

  /** Books an expense on its account, if it has one. */
  function ApplyLinked(accounts: map<Id, Account>, account: Option<Id>, amount: int): map<Id, Account> {
    match account
    case None => accounts
    case Some(id) => Apply(accounts, id, amount)
  }

  /** Undoes an expense on its account, if it has one. */
  function ReverseLinked(accounts: map<Id, Account>, account: Option<Id>, amount: int): map<Id, Account> {
    match account
    case None => accounts
    case Some(id) => Reverse(accounts, id, amount)
  }

  /** Reversing an expense exactly undoes booking it. */
  lemma ReverseUndoesApply(accounts: map<Id, Account>, id: Id, amount: int)
    ensures Reverse(Apply(accounts, id, amount), id, amount) == accounts
  {
  }

  /** Booking on an account changes the balance of that account only, and never an account type. */
  lemma ApplyFrame(accounts: map<Id, Account>, id: Id, amount: int)
    ensures Apply(accounts, id, amount).Keys == accounts.Keys
    ensures forall k :: k in accounts ==> Apply(accounts, id, amount)[k].kind == accounts[k].kind
    ensures forall k :: k in accounts && k != id ==> Apply(accounts, id, amount)[k] == accounts[k]
  {
  }

  /** What a sum over the expense table counts of one expense. */
  datatype Weight =
    | LinkedTo(account: Id)                  // amount of every expense booked on the account
    | LinkedSince(account: Id, from: Date)   // ... and dated on or after `from`
    | LinkedBefore(account: Id, from: Date)  // ... and not dated on or after `from`

  function WeightOf(w: Weight, e: Expense): int {
    match w
    case LinkedTo(a) => if e.account == Some(a) then e.amount else 0
    case LinkedSince(a, from) =>
      if e.account == Some(a) && e.date.Some? && DateLe(from, e.date.value) then e.amount else 0
    case LinkedBefore(a, from) =>
      if e.account == Some(a) && !(e.date.Some? && DateLe(from, e.date.value)) then e.amount else 0
  }

  /** Sum of `WeightOf(w, e)` over the expenses with id below `n`.  When every
      id of `m` is below `n` this is the sum over the whole table. */
  function SumOver(m: map<Id, Expense>, n: nat, w: Weight): int {
    if n == 0 then 0
    else SumOver(m, n - 1, w) + (if n - 1 in m then WeightOf(w, m[n - 1]) else 0)
  }

  predicate KeysBelow<T>(m: map<Id, T>, n: nat) {
    forall k :: k in m ==> k < n
  }

  /** Raising the bound past every id of the table does not change the sum. */
  lemma {:induction false} SumOverBound(m: map<Id, Expense>, n: nat, n': nat, w: Weight)
    requires KeysBelow(m, n) && n <= n'
    ensures SumOver(m, n', w) == SumOver(m, n, w)
    decreases n'
  {
    if n' > n {
      SumOverBound(m, n, n' - 1, w);
    }
  }

  /** Entries at or above the bound do not count. */
  lemma {:induction false} SumOverIgnoresAbove(m: map<Id, Expense>, n: nat, k: Id, e: Expense, w: Weight)
    requires n <= k
    ensures SumOver(m[k := e], n, w) == SumOver(m, n, w)
  {
    if n > 0 {
      SumOverIgnoresAbove(m, n - 1, k, e, w);
    }
  }

  /** Writing entry `k` below the bound replaces its old weight by the new one. */
  lemma {:induction false} SumOverUpdate(m: map<Id, Expense>, n: nat, k: Id, e: Expense, w: Weight)
    requires k < n
    ensures SumOver(m[k := e], n, w)
            == SumOver(m, n, w) - (if k in m then WeightOf(w, m[k]) else 0) + WeightOf(w, e)
  {
    if n - 1 == k {
      SumOverIgnoresAbove(m, n - 1, k, e, w);
    } else {
      SumOverUpdate(m, n - 1, k, e, w);
    }
  }

  /** Removing entry `k` below the bound subtracts its weight. */
  lemma {:induction false} SumOverRemove(m: map<Id, Expense>, n: nat, k: Id, w: Weight)
    requires k < n
    ensures SumOver(m - {k}, n, w) == SumOver(m, n, w) - (if k in m then WeightOf(w, m[k]) else 0)
  {
    if n - 1 == k {
      SumOverRemoveAbove(m, n - 1, k, w);
    } else {
      SumOverRemove(m, n - 1, k, w);
    }
  }

  lemma {:induction false} SumOverRemoveAbove(m: map<Id, Expense>, n: nat, k: Id, w: Weight)
    requires n <= k
    ensures SumOver(m - {k}, n, w) == SumOver(m, n, w)
  {
    if n > 0 {
      SumOverRemoveAbove(m, n - 1, k, w);
    }
  }

  /** The expenses booked on an account split into those dated from `from`
      on and the rest. */
  lemma {:induction false} SumOverSplit(m: map<Id, Expense>, n: nat, a: Id, from: Date)
    ensures SumOver(m, n, LinkedTo(a)) == SumOver(m, n, LinkedSince(a, from)) + SumOver(m, n, LinkedBefore(a, from))
  {
    if n > 0 {
      SumOverSplit(m, n - 1, a, from);
    }
  }

  /** Sum of the amounts of the expenses booked on account `a`: what
      `expenseRepository.findByAccount_Id(a)` totals to. */
  function LinkedTotal(s: Store, a: Id): int {
    SumOver(s.expenses, s.nextId, LinkedTo(a))
  }
}

=== FILE: savings.dfy ===
/** SavingController: creating and editing a saving goal, and the
    contribution cascade, which raises the goal's amount and files the
    contribution as an expense in the user's "Savings" category.  A
    contribution is booked on no account. */
module Savings {
  import opened Wrappers
  import opened Dates
  import opened Entities
  import opened Categories

  /** Request body of `createSaving` and `updateSaving` (SavingDTO). */
  datatype SavingInput = SavingInput(
    name: string,
    category: Option<string>,
    amount: int,
    target: Option<int>,
    date: Option<Date>)

  /** Request body of `recordContribution` (ContributionDTO). */
  datatype ContributionInput = ContributionInput(amount: int, date: Option<Date>)

  const SavingsCategory: string := "Savings"

  /** `mapDtoToEntity`: every editable field is taken from the request; the
      owner is kept. */
  function MapSavingInput(input: SavingInput, g: Saving): (r: Saving)
    ensures r.owner == g.owner
    ensures r.name == input.name && r.category == input.category && r.amount == input.amount
    ensures r.target == input.target && r.date == input.date
  {
    g.(name := input.name, category := input.category, amount := input.amount,
       target := input.target, date := input.date)
  }

  /** Mapping depends on the request alone, so mapping twice changes nothing more. */
  lemma MapSavingInputIdempotent(input: SavingInput, g: Saving)
    ensures MapSavingInput(input, MapSavingInput(input, g)) == MapSavingInput(input, g)
  {
  }

  /** The savings table refuses a row without a `savingDate`. */
  function Persistable(g: Saving): (r: Result<Saving>)
    ensures r.Ok? <==> g.date.Some?
    ensures r.Ok? ==> r.value == g
    ensures r.Err? ==> r.error == Rejected
  {
    if g.date.None? then Err(Rejected) else Ok(g)
  }

  /** `createSaving`: the mapped request, owned by the caller, under a fresh
      id; refused by the table when the request has no date. */
  function CreateSaving(s: Store, user: UserId, input: SavingInput): (r: Result<Store>)
    ensures r.Ok? <==> input.date.Some?
    ensures r.Err? ==> r == Err(Rejected)
    ensures r.Ok? ==>
      && r.value.savings == s.savings[s.nextId := MapSavingInput(input, Saving(user, "", None, 0, None, None))]
      && r.value.nextId == s.nextId + 1 && r.value == s.(savings := r.value.savings, nextId := r.value.nextId)
    ensures r.Ok? && Fresh(s) ==> Fresh(r.value) && s.nextId !in s.savings
  {
    var g :- Persistable(MapSavingInput(input, Saving(user, "", None, 0, None, None)));
    Ok(s.(savings := s.savings[s.nextId := g], nextId := s.nextId + 1))
  }

  /** `updateSaving`: the saving must exist and be the caller's, and the
      table refuses the rewritten row when the request has no date. */
  function UpdateSaving(s: Store, user: UserId, id: Id, input: SavingInput): (r: Result<Store>)
    ensures id !in s.savings ==> r == Err(NotFound("Saving record not found"))
    ensures id in s.savings && s.savings[id].owner != user ==> r == Err(Unauthorized("Unauthorized access to saving record"))
    ensures id in s.savings && s.savings[id].owner == user && input.date.None? ==> r == Err(Rejected)
    ensures r.Ok? <==> id in s.savings && s.savings[id].owner == user && input.date.Some?
    ensures r.Ok? ==>
      && r.value.savings.Keys == s.savings.Keys
      && (forall k :: k in s.savings && k != id ==> r.value.savings[k] == s.savings[k])
      && r.value.savings[id] == MapSavingInput(input, s.savings[id])
      && r.value == s.(savings := r.value.savings)
  {
    if id !in s.savings then Err(NotFound("Saving record not found"))
    else if s.savings[id].owner != user then Err(Unauthorized("Unauthorized access to saving record"))
    else
      var g :- Persistable(MapSavingInput(input, s.savings[id]));
      Ok(s.(savings := s.savings[id := g]))
  }

  /** Repeating an update changes nothing. */
  lemma UpdateSavingIdempotent(s: Store, user: UserId, id: Id, input: SavingInput)
    requires UpdateSaving(s, user, id, input).Ok?
    ensures UpdateSaving(UpdateSaving(s, user, id, input).value, user, id, input) == UpdateSaving(s, user, id, input)
  {
    var s1 := UpdateSaving(s, user, id, input).value;
    MapSavingInputIdempotent(input, s.savings[id]);
    assert s1.savings[id := MapSavingInput(input, s1.savings[id])] == s1.savings;
  }

  /** Editing a saving just created gives what creating it with the edit
      would have given: every field the request sets is overwritten. */
  lemma CreateThenUpdateIsCreate(s: Store, user: UserId, first: SavingInput, second: SavingInput)
    requires CreateSaving(s, user, first).Ok? && second.date.Some?
    ensures UpdateSaving(CreateSaving(s, user, first).value, user, s.nextId, second) == CreateSaving(s, user, second)
  {
    var g := Saving(user, "", None, 0, None, None);
    assert MapSavingInput(second, MapSavingInput(first, g)) == MapSavingInput(second, g);
    assert s.savings[s.nextId := MapSavingInput(first, g)][s.nextId := MapSavingInput(second, g)]
        == s.savings[s.nextId := MapSavingInput(second, g)];
  }

  /** `recordContribution`. */
  function RecordContribution(s: Store, user: UserId, id: Id, c: ContributionInput, today: Date): (r: Result<Store>)
    ensures id !in s.savings ==> r == Err(NotFound("Saving record not found"))
    ensures id in s.savings && s.savings[id].owner != user ==> r == Err(Unauthorized("Unauthorized access to saving record"))
    ensures r.Ok? <==> id in s.savings && s.savings[id].owner == user
    ensures r.Ok? ==>
      var g := s.savings[id];
      && r.value.savings == s.savings[id := g.(amount := g.amount + c.amount)]
      && r.value.accounts == s.accounts && r.value.debts == s.debts
      && r.value.incomes == s.incomes && r.value.budgets == s.budgets
    ensures r.Ok? ==>
      var (s1, cat) := NamedCategory(s, user, SavingsCategory, None);
      var k := s1.nextId;
      && r.value.categories == s1.categories
      && r.value.nextId == k + 1
      && r.value.expenses == s.expenses[k := Expense(user, "Saving: " + s.savings[id].name, "", c.amount,
                                                     Some(if c.date.Some? then c.date.value else today),
                                                     Some(cat), None, None, Some(id))]
    ensures r.Ok? && Fresh(s) ==> Fresh(r.value) && s.nextId < r.value.nextId && r.value.nextId - 1 !in s.expenses
  {
    if id !in s.savings then Err(NotFound("Saving record not found"))
    else
      var g := s.savings[id];
      if g.owner != user then Err(Unauthorized("Unauthorized access to saving record"))
      else
        var (s1, cat) := NamedCategory(s, user, SavingsCategory, None);
        var e := Expense(user, "Saving: " + g.name, "", c.amount,
                         Some(if c.date.Some? then c.date.value else today), Some(cat), None, None, Some(id));
        Ok(s1.(savings := s1.savings[id := g.(amount := g.amount + c.amount)],
               expenses := s1.expenses[s1.nextId := e],
               nextId := s1.nextId + 1))
  }

  /** A second contribution files under the category the first one found or
      created: the cascade never creates a second "Savings" category. */
  lemma ContributionsShareCategory(s: Store, user: UserId, id: Id, c1: ContributionInput, c2: ContributionInput, today: Date)
    requires Fresh(s)
    requires RecordContribution(s, user, id, c1, today).Ok?
    ensures var s1 := RecordContribution(s, user, id, c1, today).value;
            var s2 := RecordContribution(s1, user, id, c2, today);
            && s2.Ok?
            && s2.value.categories == s1.categories
            && s2.value.expenses[s2.value.nextId - 1].category == s1.expenses[s1.nextId - 1].category
  {
    var (t, cat) := NamedCategory(s, user, SavingsCategory, None);
    NamedCategoryStable(s, user, SavingsCategory, None);
    var s1 := RecordContribution(s, user, id, c1, today).value;
    FirstNamedBound(t.categories, user, SavingsCategory, t.nextId, s1.nextId);
  }
}

=== FILE: text.dfy ===
/** The `java.lang.String` operations the handlers apply to names and type
    strings: `toUpperCase`, `equalsIgnoreCase`, `trim().isEmpty()` and
    `isBlank()`.

    Case mapping is given for the characters whose Java upper case is an
    ASCII letter; every other character is left as it is.  Each result is
    only ever compared with an ASCII constant ("INCOME", "Savings", ...),
    and for that comparison this mapping decides as Java does when the
    JVM's default locale has the root case rules for these letters (it
    does not under a Turkish or Azerbaijani locale, where `i` upper-cases
    to a dotted capital I). */
module JavaText {

  /** `Character.toUpperCase` on the characters that map onto A..Z. */
  function UpperChar(c: char): char {
    if 'a' <= c <= 'z' then (c as int - 32) as char
    else if c == '\U{0131}' then 'I'      // dotless i
    else if c == '\U{017F}' then 'S'      // long s
    else c
  }

  /** `String.toUpperCase()` under a default locale with the root case
      rules, character by character. */
  function ToUpper(s: string): (r: string)
    ensures |r| == |s|
    ensures forall i :: 0 <= i < |s| ==> r[i] == UpperChar(s[i])
    ensures forall i :: 0 <= i < |r| ==> !('a' <= r[i] <= 'z')
    ensures forall i :: 0 <= i < |s| && 'a' <= s[i] <= 'z' ==> r[i] != s[i] && FoldChar(r[i]) == FoldChar(s[i])
  {
    seq(|s|, i requires 0 <= i < |s| => UpperChar(s[i]))
  }

  /** The character `equalsIgnoreCase` compares: the upper case, with the two
      upper-case letters whose lower case is ASCII folded onto it. */
  function FoldChar(c: char): char {
    var u := UpperChar(c);
    if u == '\U{0130}' then 'I'           // capital I with dot above
    else if u == '\U{212A}' then 'K'      // Kelvin sign
    else u
  }

  predicate EqualsIgnoreCase(a: string, b: string) {
    |a| == |b| && forall i :: 0 <= i < |a| ==> FoldChar(a[i]) == FoldChar(b[i])
  }

  /** `s.trim().isEmpty()`: `trim` strips every character up to U+0020. */
  predicate TrimIsEmpty(s: string) {
    forall i :: 0 <= i < |s| ==> s[i] <= ' '
  }

  /** `Character.isWhitespace`. */
  predicate IsWhitespace(c: char) {
    || ('\t' <= c <= '\r')                    // tab, line feed, vertical tab, form feed, carriage return
    || ('\U{001C}' <= c <= ' ')               // file, group, record and unit separators, space
    || c == '\U{1680}'                        // ogham space mark
    || ('\U{2000}' <= c <= '\U{2006}')         // en quad .. six-per-em space
    || ('\U{2008}' <= c <= '\U{200A}')         // punctuation space .. hair space
    || c == '\U{2028}' || c == '\U{2029}'      // line and paragraph separators
    || c == '\U{205F}' || c == '\U{3000}'      // medium mathematical space, ideographic space
  }

  /** `s.isBlank()`. */
  predicate IsBlank(s: string) {
    forall i :: 0 <= i < |s| ==> IsWhitespace(s[i])
  }

  /** Upper-casing keeps ASCII upper-case strings as they are, so a stored
      type name is its own canonical form. */
  lemma ToUpperIdempotentOnUpper(s: string)
    requires forall i :: 0 <= i < |s| ==> 'A' <= s[i] <= 'Z'
    ensures ToUpper(s) == s
  {
  }
}

=== FILE: wrappers.dfy ===
/** Failure-compatible result type for the request handlers.

    Every handler of the finance backend either returns a value or throws a
    `RuntimeException` whose message is shown to the client.  The model
    returns `Ok(value)` or `Err(error)`, and the error carries the message
    the handler throws. */
module Wrappers {

  datatype Option<+T> = None | Some(value: T)

  /** The failure classes the handlers raise. */
  datatype Error =
    | NotFound(message: string)      // repository lookup by id came back empty
    | Unauthorized(message: string)  // record exists but belongs to another user
    | Invalid(message: string)       // request rejected by a validation rule
    | InUse(category: string)        // category deletion refused, names the category in use
    | NullReference                  // the handler dereferences a null field
    | BadDate                        // java.time rejected a year, month or day
    | Rejected                       // the database refused a row with a mandatory column left null

  datatype Result<+T> = Ok(value: T) | Err(error: Error) {

    predicate IsFailure() {
      Err?
    }

    function PropagateFailure<U>(): Result<U>
      requires Err?
    {
      Err(error)
    }

    function Extract(): T
      requires Ok?
    {
      value
    }
  }
}
